=== FILE: README.md ===
# Fleet booking ledger — a verified Dafny model

This project models the rules at the heart of a car-fleet booking system.
On the backend it covers the booking service and the auth service. On the
front end it covers the pages that compute money and lists: the company
report, the driver report, the booking details screen, the create-booking
form and the fuel report. Every write is a pure function from a record to a
record, and every read runs over the collection as a sequence. Amounts are
`real`, timestamps are integer milliseconds, and strings are `seq<char>`.

Modules, one per file:

- `Wrappers`, `Lists`, `Text`: the Option/Result types, sums, filters and keyed
  removal on sequences, and the string helpers the pages use. The string
  helpers cover JS `trim`, `\s`, ASCII lower-casing, `includes`,
  `replace(/\s+/g, ' ')` and a code-point order standing in for `localeCompare`.
- `Ledger`: the booking, expense, payment, duty-slip and driver-payment
  records. Also the JS truthiness of optional numbers and the
  "final payment" oil sum that both reports share.
- `BookingService`: `createBooking`, `updateBooking`, the role-scoped reads,
  `updateStatus`, `deleteBooking`, and the expense, payment and duty-slip
  updates.
- `AuthService`: phone variants, the link-once association step, and the
  refusals of registration and login.
- `CompanyReport`, `DriverReport`: the two payable rules. The company rule
  branches and is clamped at zero. The driver rule is unclamped and flips
  once a settlement exists. The driver report also covers its settlement
  loop and its vehicle counts.
- `BookingDetails`: the fuel-basis preview, the create and edit payloads,
  the driver-payment total, and the list updates on that screen.
- `CreateBooking`: the city sanitiser, adding a city, the end-date sync, the
  form schema and the submit normalisation.
- `FuelReport`: the fuel report's filter, merge, date sort, numbering,
  totals, and the loader's fuel-basis filter.

Where the pages test a value for truthiness, an empty id or text (`""`) and
an absent one are both `None`. A number is truthy when it is `Some` and
non-zero.

## Model

| member | source | states |
|---|---|---|
| BookingService.CreateBooking | backend/src/api/services/booking.service.ts:5-18 | A new booking has balance = total − advance. It is `booked`, has no expenses or duty slips, is unbilled, and its log is exactly one `booked` entry by "System". Its balance and log invariants hold. Every field the caller supplies (id, source, company, driver, vehicle, customer, locations, dates, amounts, payments, finalPaid) is copied unchanged. |
| BookingService.UpdateBooking | backend/src/api/services/booking.service.ts:70-86 | Every field the caller sends, the id aside, is written, and every field not sent keeps its value. Sending either amount makes the balance consistent, using the stored value for the side not sent. Sending neither amount writes the caller's balance, if any. A sent status is set and appended as one "System" entry to the stored log. Sending a status together with a log of the caller's own is refused with the store's conflict error, and only that is refused. |
| BookingService.UpdateBookingPreservesInvariants | backend/src/api/services/booking.service.ts:71-85 | An update that sends neither a balance nor a status log succeeds, keeps the balance consistent, and keeps the last log entry equal to the status. |
| BookingService.PartialUpdateUsesStoredSide | backend/src/api/services/booking.service.ts:72-79 | Sending only the total gives the same balance as sending it with the stored advance: total − stored advance. |
| BookingService.ClientLogBreaksHistory | backend/src/api/services/booking.service.ts:70-71 | Sending an empty status log and no status succeeds, and leaves a booking whose log no longer records its status. |
| BookingService.ClientBalanceBreaksBalance | backend/src/api/services/booking.service.ts:70-80 | Sending a balance that disagrees with the amounts, and neither amount, succeeds and leaves the balance inconsistent. |
| BookingService.ScopeOf | backend/src/api/services/booking.service.ts:35-47 | There is no scope exactly for a driver without a driver link or a customer without a customer link, where an empty link id counts as none. Linked drivers and customers are pinned to their own record. Everyone else is unrestricted. |
| BookingService.BuildQuery | backend/src/api/services/booking.service.ts:23-47 | There is no query exactly when the caller is unlinked. A driver's query names its own driver, whatever was requested. A customer's query names its own customer. An unrestricted caller or a customer gets the requested driver when it is non-empty, and no driver filter when it is absent or empty. An unrestricted caller gets no customer pin. |
| BookingService.GetBookings | backend/src/api/services/booking.service.ts:23-55 | An unlinked caller gets an empty page with total 0. The total is the number returned. The result holds exactly the stored bookings the query matches, each as many times as it is stored, so the total is the number of matching stored bookings. A driver only ever sees its own bookings, and so does a customer. |
| BookingService.DriverRequestIgnored | backend/src/api/services/booking.service.ts:33-40 | For a driver, changing the requested driver filter never changes the result. |
| BookingService.EmptyDriverRequestIgnored | backend/src/api/services/booking.service.ts:33 | For every caller, `?driverId=` with an empty value lists the same bookings as a request with no driver. |
| BookingService.GetBookingById | backend/src/api/services/booking.service.ts:57-67 | An unlinked caller gets nothing. A result is a stored booking with that id inside the caller's scope. Nothing is returned only when no booking with that id is in scope. |
| BookingService.UpdateStatus | backend/src/api/services/booking.service.ts:125-136 | An unlinked caller gets nothing. Otherwise it succeeds exactly when the booking is in scope. It sets the status and appends one entry with the given author, so the log ends in the current status. No other field changes. |
| BookingService.DeleteBooking | backend/src/api/services/booking.service.ts:89-91 | Nothing is removed exactly when no booking has the id; then the collection is unchanged. Otherwise one booking with that id leaves, and the rest are the collection minus that booking. |
| BookingService.DeletedNotFound | backend/src/api/services/booking.service.ts:57-67 | With unique ids, a deleted booking cannot be read back by any caller. |
| BookingService.PatchExpense | backend/src/api/services/booking.service.ts:106-111 | Each sent field replaces the stored one and each field not sent is kept. The id never changes. |
| BookingService.AddExpense | backend/src/api/services/booking.service.ts:93-95 | The expense is appended after the unchanged existing ones, and nothing else changes. |
| BookingService.UpdateExpense | backend/src/api/services/booking.service.ts:97-115 | Fails exactly when no expense has the id. Otherwise exactly one expense with that id is patched, every other position is unchanged, and nothing else in the booking changes. |
| BookingService.DeleteExpense | backend/src/api/services/booking.service.ts:117-123 | Exactly the expenses with that id are removed, and every other expense keeps its multiplicity. |
| BookingService.DeleteUndoesAddExpense | backend/src/api/services/booking.service.ts:93-123 | Deleting an expense just added under a fresh id restores the booking. |
| BookingService.PatchPayment | backend/src/api/services/booking.service.ts:170-175 | Each sent field replaces the stored one and each field not sent is kept. The id never changes. |
| BookingService.AddPayment | backend/src/api/services/booking.service.ts:153-155 | The payment is appended after the unchanged existing ones, and nothing else changes. |
| BookingService.UpdatePayment | backend/src/api/services/booking.service.ts:162-179 | Fails exactly when no payment has the id. Otherwise exactly one payment with that id is patched and every other payment is unchanged. |
| BookingService.DeletePayment | backend/src/api/services/booking.service.ts:181-187 | Exactly the payments with that id are removed, and the others keep their multiplicity. |
| BookingService.DeleteUndoesAddPayment | backend/src/api/services/booking.service.ts:153-187 | Deleting a payment just added under a fresh id restores the booking. |
| BookingService.ListPayments | backend/src/api/services/booking.service.ts:157-160 | An unknown booking has no payments. Otherwise the result is the payments of the first stored booking with that id. |
| BookingService.ListPaymentsOfStored | backend/src/api/services/booking.service.ts:157-160 | With unique ids, listing a stored booking's payments gives exactly that booking's payments. |
| BookingService.ListAfterAddPayment | backend/src/api/services/booking.service.ts:153-160 | With unique ids, after a payment is added to a stored booking, listing that booking gives its old payments followed by the new one. |
| BookingService.SlipsOf | backend/src/api/services/booking.service.ts:140-145 | One slip per file, in upload order, with the uploader and the time. |
| BookingService.UploadDutySlips | backend/src/api/services/booking.service.ts:139-147 | The new slips follow the unchanged existing ones, one per file with the file's path. Nothing else changes. |
| BookingService.RemoveDutySlip | backend/src/api/services/booking.service.ts:149-151 | Exactly the slips stored under that path are removed. Every other slip keeps its multiplicity, and nothing else in the booking changes. |
| BookingService.RemoveUndoesUploadSlip | backend/src/api/services/booking.service.ts:139-151 | Removing the path of a slip just uploaded, when no stored slip had that path, restores the booking. |
| AuthService.AddUnique | backend/src/api/services/auth.service.ts:19-24 | Adding to a duplicate-free list keeps it duplicate-free. The elements are the old ones plus the new one. |
| AuthService.CollectPhoneVariants | backend/src/api/services/auth.service.ts:16-26 | No duplicates and no empty strings, and at most three. The elements are exactly the non-empty trimmed phone, plus its digits and "+"+digits when the digits are non-empty. A blank phone yields nothing. |
| AuthService.DigitsOfDigits | backend/src/api/services/auth.service.ts:18 | A string of digits is its own digits-only form. |
| AuthService.PlusPhoneVariants | backend/src/api/services/auth.service.ts:17-24 | The variants of "+" followed by digits are exactly that phone and its digits. |
| AuthService.CountryCodeIsKept | backend/src/api/services/auth.service.ts:17-24 | "+"+d yields "+"+d and d, and never anything shorter than d. |
| AuthService.LocalNumberDoesNotMatchCountryCode | backend/src/api/services/auth.service.ts:33-36 | A record stored as 9876543210 is not found from a login phone of +919876543210. |
| AuthService.FindByPhone | backend/src/api/services/auth.service.ts:34-36 | Nothing is found exactly when no record's phone is a variant. A hit is the id of a record whose phone is one. |
| AuthService.SyncUserAssociations | backend/src/api/services/auth.service.ts:28-60 | The returned ids are the user's. There is no save without a change. A save is exactly one new link for an unlinked driver or customer. The lookup uses the user's phone variants in that role's collection. Other roles come back untouched. |
| AuthService.SyncIdempotent | backend/src/api/services/auth.service.ts:33-57 | A second run on the result saves nothing and changes nothing. |
| AuthService.LinkedUserSkipsLookup | backend/src/api/services/auth.service.ts:33-57 | An already-linked driver or customer neither looks up nor saves, whatever the records hold. |
| AuthService.RoleConsultsOwnCollection | backend/src/api/services/auth.service.ts:33-53 | A driver's result ignores the customer records, and a customer's result ignores the driver records. |
| AuthService.RegisterUser | backend/src/api/services/auth.service.ts:66-81 | Fails with "Email in use" exactly when the email is taken. Otherwise the user has the new id, the given email, name, phone, role and links, and the hash in place of the password. |
| AuthService.RegisterKeepsEmailsUnique | backend/src/api/services/auth.service.ts:67-68 | Storing a successful registration keeps emails unique. |
| AuthService.LoginUser | backend/src/api/services/auth.service.ts:83-110 | Succeeds exactly when the first user with that email has a password matching its hash. Every refusal is "Invalid credentials", including an unknown email. The token names that user, carries its role, and carries the ids the association sync returns for it. |
| AuthService.LoginAfterRegister | backend/src/api/services/auth.service.ts:66-110 | A user just registered logs in with a password matching the stored hash. The token names the new user and carries the registered role. |
| CompanyReport.Uncovered | project/src/pages/reports/CompanyReport.tsx:119-125 | Never negative. With the payments it reaches the expenses, exactly when it is positive. |
| CompanyReport.PayableBase | project/src/pages/reports/CompanyReport.tsx:116-128 | With oil it is the oil plus the uncovered expenses. Without oil it is the uncovered expenses while 0 ≤ payments ≤ expenses, and the whole expenses once payments exceed them. |
| CompanyReport.PayableBaseIsRemainderExceptOverpaid | project/src/pages/reports/CompanyReport.tsx:116-128 | For non-negative amounts the base is "oil + uncovered" in every case except no oil with payments above non-zero expenses. |
| CompanyReport.AmountPayable | project/src/pages/reports/CompanyReport.tsx:129-131 | Never negative. The target is finalPaid − base with a settlement and the base without one. The result is the target or 0, and never below the target. |
| CompanyReport.FinanceFor | project/src/pages/reports/CompanyReport.tsx:110 | A booking without a driver, or with an empty driver id, has no driver payments. Otherwise it gets those fetched for its driver, or none when nothing was fetched for it. |
| CompanyReport.MakeRow | project/src/pages/reports/CompanyReport.tsx:107-150 | Advance to driver is advance + payments. Expenses are the expense sum + oil. Received is advance to driver + finalPaid, where a missing or zero value counts 0. Payable is the clamped rule, so never negative. |
| CompanyReport.RowsFrom | project/src/pages/reports/CompanyReport.tsx:97-151 | One row per kept booking, numbered consecutively from the start. |
| CompanyReport.GenerateRows | project/src/pages/reports/CompanyReport.tsx:74-151 | Row i is the row of the i-th booking, in stored order, that starts in the window and belongs to the chosen company. It is numbered i+1, and there is one row per such booking. |
| CompanyReport.CoveredExpensesPayNothing | project/src/pages/reports/CompanyReport.tsx:116-131 | Payments equal to the expenses, with no oil and no settlement, leave 0 payable. |
| DriverReport.DisplayPayable | project/src/pages/reports/DriverReport.tsx:159-161 | Without a settlement it is the trip balance. With one, it and the balance add up to the settlement. |
| DriverReport.PayableOf | project/src/pages/reports/DriverReport.tsx:83-169 | Total payment is advance + payments + finalPaid. Without a settlement, payable + oil + expenses = advance + payments, with no clamp. With a settlement, payable + advance + payments = finalPaid + oil + expenses. |
| DriverReport.PayablesOf | project/src/pages/reports/DriverReport.tsx:80-172 | One entry per booking, in order. |
| DriverReport.BookingPayables | project/src/pages/reports/DriverReport.tsx:68-172 | Empty without a driver. Entry i is the payable of the i-th of the driver's bookings starting in the window, in stored order, so each trip appears once. |
| DriverReport.BookingOptions | project/src/pages/reports/DriverReport.tsx:185-195 | The ids offered are exactly those of the trips whose finalPaid is missing or zero. |
| DriverReport.DefaultSelection | project/src/pages/reports/DriverReport.tsx:197-201 | An empty selection becomes "all bookings" exactly when there is a trip. Any other selection is kept. |
| DriverReport.PayAmount | project/src/pages/reports/DriverReport.tsx:203-214 | No selection pays 0. One unknown booking pays 0. One known booking, with unique ids, pays that trip's payable. |
| DriverReport.AllIsSumOfEach | project/src/pages/reports/DriverReport.tsx:203-214 | With unique ids, the all-bookings amount is the sum of the single-booking amounts. |
| DriverReport.SettleAll | project/src/pages/reports/DriverReport.tsx:613-628 | Every settlement has a positive amount equal to its trip's payable and settles a trip without a positive finalPaid. Every such trip with a positive payable gets at least one, and `SettleAllOnce` makes that exactly one when ids are unique. |
| DriverReport.SettleAllIsFilterMap | project/src/pages/reports/DriverReport.tsx:613-628 | The loop is the list of due trips in listed order, each settled once with its payable. A trip is due when it has no positive finalPaid and its payable is positive. |
| DriverReport.SettleAllOnce | project/src/pages/reports/DriverReport.tsx:613-628 | With unique booking ids, no trip is settled twice by one run. |
| DriverReport.PayToDriver | project/src/pages/reports/DriverReport.tsx:605-643 | Nothing without a selection, a non-empty driver and a positive amount. Each settlement is positive and settles an unsettled trip for that driver. "All bookings" pays each trip its payable and misses no eligible trip. One booking that is found and has no finalPaid gets exactly one settlement of the entered amount. A booking with a finalPaid, or one not found, gets none. |
| DriverReport.SettlementIsNotOil | project/src/pages/reports/DriverReport.tsx:622 | The settlement note contains "final payment" once lower-cased, so recording it never changes an oil total. |
| DriverReport.MakeRow | project/src/pages/reports/DriverReport.tsx:274-407 | Advance to driver is the advance alone. On-duty is the payment sum. Expenses are the expense sum + oil. Received is finalPaid, or 0. Payable equals the summary's. |
| DriverReport.RowsFrom | project/src/pages/reports/DriverReport.tsx:267-408 | One row per kept booking, numbered consecutively. |
| DriverReport.GenerateRows | project/src/pages/reports/DriverReport.tsx:252-408 | Row i is the row of the i-th booking, in stored order, that starts in the window and belongs to the chosen driver, or to any driver when none is chosen. It is numbered i+1, and there is one row per such booking. |
| DriverReport.CountVehicles | project/src/pages/reports/DriverReport.tsx:593-595 | The keys are exactly the vehicles used, and each maps to its positive trip count. |
| DriverReport.CountOneMore | project/src/pages/reports/DriverReport.tsx:594 | Counting one more booking keeps the map an exact per-vehicle trip count. |
| DriverReport.AssignedVehicles | project/src/pages/reports/DriverReport.tsx:583-602 | Empty without a driver. The keys are exactly the known vehicles the driver used in the window, each with its positive trip count. |
| DriverReport.ReportsDisagreeOnCoveredTrip | project/src/pages/reports/DriverReport.tsx:373-374 | With payments covering the expenses, no oil and no settlement, the company row pays 0 and the driver row pays the whole advance. |
| DriverReport.ReportsDisagreeExample | project/src/pages/reports/DriverReport.tsx:148-149 | Advance 2000 with one 500 payment and one 500 expense: the company report gives 0 and the driver report 2000. |
| BookingDetails.Round2 | project/src/pages/bookings/BookingDetails.tsx:1436-1441 | Within half a cent of the input and a whole number of cents. |
| BookingDetails.Round2Exact | project/src/pages/bookings/BookingDetails.tsx:1436 | An amount already in whole cents is unchanged. |
| BookingDetails.DerivedFuelQty | project/src/pages/bookings/BookingDetails.tsx:154-160 | Defined exactly for fuel basis with distance and a positive mileage entered. Then quantity × mileage = distance. |
| BookingDetails.EffectiveFuelQty | project/src/pages/bookings/BookingDetails.tsx:161-166 | The derived quantity when there is one, else the entered one, else 0. |
| BookingDetails.ComputedFuelAmount | project/src/pages/bookings/BookingDetails.tsx:167-170 | Fuel basis with a rate gives the effective quantity × rate. A non-zero preview only arises that way. |
| BookingDetails.FuelFields | project/src/pages/bookings/BookingDetails.tsx:1373-1432 | Distance and mileage are sent exactly when the distance rule holds. An entered quantity is sent only when no non-zero distance was. The rate is passed through. |
| BookingDetails.CreatePayload | project/src/pages/bookings/BookingDetails.tsx:1404-1450 | A non-fuel mode sends the amount and no fuel fields. In fuel basis, distance and mileage are sent exactly when the quantity can be derived, and then as entered. A non-zero derived distance sets quantity = round2(derived), overriding any entry. An amount is sent exactly when quantity and rate are both non-zero, and it is round2(quantity × rate). |
| BookingDetails.EditPayload | project/src/pages/bookings/BookingDetails.tsx:1364-1390 | Fuel basis never sends an amount. Distance and mileage are sent exactly when the quantity can be derived, and then as entered. The entered quantity is sent exactly when no non-zero distance goes along. The rate is sent as entered. Other modes send the amount and no fuel fields. |
| BookingDetails.PayloadMatchesPreview | project/src/pages/bookings/BookingDetails.tsx:1435-1441 | When the derived quantity is already whole cents, the created amount is the preview rounded to cents. |
| BookingDetails.FuelExample | project/src/pages/bookings/BookingDetails.tsx:1419-1447 | 100 km at 10 km/L and rate 90 sends 10 litres and 900. |
| BookingDetails.SubmitDriverPayment | project/src/pages/bookings/BookingDetails.tsx:1353-1462 | Nothing without a driver. Editing "finalPaid" sets it. Editing a payment sends the edit payload for that id. Otherwise the create payload for the booking's driver is sent. |
| BookingDetails.FuelSubmitAmounts | project/src/pages/bookings/BookingDetails.tsx:1364-1450 | A fuel-basis edit sends no amount and no driver. A fuel-basis create with a non-zero distance and mileage, a rate and a non-zero rounded quantity sends that quantity, rounded to cents, and its cost. |
| BookingDetails.TotalDriverPayments | project/src/pages/bookings/BookingDetails.tsx:381-393 | Without a settling payment it is the sum of the amounts. With one, it is the amount of the first payment whose description mentions "final payment". |
| BookingDetails.TotalAfterCreate | project/src/pages/bookings/BookingDetails.tsx:381-393 | Prepending a settling payment makes the total its amount. Another payment adds to the sum, or is ignored when a settlement is already shown. |
| BookingDetails.DisplayedBalance | project/src/pages/bookings/BookingDetails.tsx:1016 | For a consistent booking it is total − advance − the payment sum. |
| BookingDetails.RemoveDutySlip | project/src/pages/bookings/BookingDetails.tsx:364-367 | Exactly the slips with that id are removed. Every other slip keeps its multiplicity, and nothing else changes. |
| BookingDetails.AppendDutySlips | project/src/pages/bookings/BookingDetails.tsx:354 | The existing slips are kept in front and the new ones follow. |
| BookingDetails.RemoveUndoesUpload | project/src/pages/bookings/BookingDetails.tsx:354-367 | Removing a slip just uploaded under a fresh id restores the booking. |
| BookingDetails.ReplaceDriverPayment | project/src/pages/bookings/BookingDetails.tsx:883-887 | Same length. Exactly the entries with the clicked payment's id are replaced by the returned record; every other entry is unchanged. |
| BookingDetails.SettleThenDelete | project/src/pages/bookings/BookingDetails.tsx:883-916 | When the returned record keeps the clicked id, settling and then deleting leaves the same list as deleting alone. |
| BookingDetails.DeleteDriverPayment | project/src/pages/bookings/BookingDetails.tsx:914-916 | Exactly the payments with that id are removed, and every other payment keeps its multiplicity. |
| BookingDetails.DeleteUndoesCreate | project/src/pages/bookings/BookingDetails.tsx:914-916 | Deleting a payment just prepended under a fresh id restores the list. |
| CreateBooking.CleanCity | project/src/pages/bookings/CreateBooking.tsx:61-64 | Dropped exactly when the trimmed name is empty or lower-cases to "select city". A kept name is non-empty, unpadded and single-spaced. |
| CreateBooking.CleanCityLetters | project/src/pages/bookings/CreateBooking.tsx:61-64 | A kept name holds exactly the input's non-white-space characters, in order. |
| CreateBooking.CleanAll | project/src/pages/bookings/CreateBooking.tsx:61-64 | Holds exactly the cleaned forms of the inputs that are kept. |
| CreateBooking.Insert | project/src/pages/bookings/CreateBooking.tsx:65 | Keeps a list strictly sorted and adds exactly the new name. |
| CreateBooking.SortDistinct | project/src/pages/bookings/CreateBooking.tsx:65 | Strictly sorted, so duplicate-free, with the same elements as the input. |
| CreateBooking.SanitizeCities | project/src/pages/bookings/CreateBooking.tsx:60-66 | Strictly sorted and duplicate-free. Every element is well formed and is the cleaned form of some input, and every kept input appears. |
| CreateBooking.SortedPairwise | project/src/pages/bookings/CreateBooking.tsx:65 | A sorted list is ordered between any two positions. |
| CreateBooking.SortedUnique | project/src/pages/bookings/CreateBooking.tsx:65 | Two sorted lists with the same elements are equal, so the output depends only on the set of cleaned names. |
| CreateBooking.CleanJoined | project/src/pages/bookings/CreateBooking.tsx:62-64 | Two words joined by a run of white space clean to the words joined by one space, unless they spell the placeholder. |
| CreateBooking.PlaceholderDropped | project/src/pages/bookings/CreateBooking.tsx:63 | "Select City" is dropped. |
| CreateBooking.SanitizeOneKept | project/src/pages/bookings/CreateBooking.tsx:60-66 | A single kept name sanitises to its cleaned form. |
| CreateBooking.SanitizeOneDropped | project/src/pages/bookings/CreateBooking.tsx:60-66 | A single dropped name sanitises to nothing. |
| CreateBooking.SanitizeTwice | project/src/pages/bookings/CreateBooking.tsx:60-66 | A name whose cleaned form is itself dropped survives one pass but not two. |
| CreateBooking.SpacedPlaceholder | project/src/pages/bookings/CreateBooking.tsx:63-64 | "Select␣␣City" cleans to "Select City", because the placeholder test runs before collapsing. |
| CreateBooking.JoinedPlaceholder | project/src/pages/bookings/CreateBooking.tsx:63 | "Select"+" "+"City" is dropped. |
| CreateBooking.SanitizeNotIdempotent | project/src/pages/bookings/CreateBooking.tsx:60-66 | Sanitising ["Select␣␣City"] gives ["Select City"], and sanitising that again gives []. |
| CreateBooking.AddCity | project/src/pages/bookings/CreateBooking.tsx:501-527 | A blank name is refused with "City name is required", and only such a name. A listed name is refused with "City already exists". Otherwise the trimmed name is selected. The list becomes the sanitised server list, or, when the request fails, the sanitised saved list with the name added. |
| CreateBooking.WithCity | project/src/pages/bookings/CreateBooking.tsx:520 | The saved names plus the new one. |
| CreateBooking.AddedCityNotListed | project/src/pages/bookings/CreateBooking.tsx:513-524 | A name typed with two inner spaces is selected as typed, while the list holds only its single-spaced form. |
| CreateBooking.SyncEndDate | project/src/pages/bookings/CreateBooking.tsx:96-103 | For one-way and transfer trips with a start date, the end date becomes the start date and nothing else changes. Otherwise the form is untouched. |
| CreateBooking.ValidationErrors | project/src/pages/bookings/CreateBooking.tsx:16-34 | Each field error is reported exactly when its rule fails: name, pickup, drop and dates non-empty; phone at least 10 characters; tariff, total and advance ≥ 0. |
| CreateBooking.SyncedEndDateAccepted | project/src/pages/bookings/CreateBooking.tsx:96-103 | After the sync, a one-way form with a start date passes the end-date rule. |
| CreateBooking.Chosen | project/src/pages/bookings/CreateBooking.tsx:129-131 | An empty select is absent, and any other value is kept. |
| CreateBooking.NormalizeForm | project/src/pages/bookings/CreateBooking.tsx:117-144 | Individuals carry no company. Empty selects are dropped. balance + advance = total. The booking is `booked` with one entry by "Dispatcher", no expenses, unbilled, and no duty slips submitted. |
| CreateBooking.ServerKeepsBalanceButNotLog | project/src/pages/bookings/CreateBooking.tsx:132-143 | The server's new booking agrees with the form's balance and status, but its log entry is by "System", not "Dispatcher". |
| FuelReport.EntryRow | project/src/pages/reports/FuelReport.tsx:129-143 | A fuel entry's row has no distance or mileage and carries the entry's date, quantity, rate and total. |
| FuelReport.PaymentRow | project/src/pages/reports/FuelReport.tsx:161-175 | Missing distance, mileage, quantity and rate show as 0. The total is the computed amount when non-zero, else the amount. |
| FuelReport.InsertByDate | project/src/pages/reports/FuelReport.tsx:179-181 | Inserting into a newest-first list keeps it newest first and adds exactly one row. |
| FuelReport.SortByDate | project/src/pages/reports/FuelReport.tsx:179-181 | Newest first, and a permutation of the input. |
| FuelReport.Number | project/src/pages/reports/FuelReport.tsx:184 | Row i gets serial start+i and nothing else changes. |
| FuelReport.GenerateRows | project/src/pages/reports/FuelReport.tsx:110-186 | As many rows as entries and payments kept. Serials are exactly 1..n. Newest first. With the serials cleared, a permutation of the kept entry rows followed by the kept payment rows. |
| FuelReport.NumberThenClear | project/src/pages/reports/FuelReport.tsx:179-184 | Numbering then clearing an arrangement of unnumbered rows gives it back, and numbering keeps the date order. |
| FuelReport.ListedExactlyWhenKept | project/src/pages/reports/FuelReport.tsx:117-156 | Every entry and payment the filters keep is listed. Every listed row comes from a kept entry or a kept payment. |
| FuelReport.KeptEntriesContents | project/src/pages/reports/FuelReport.tsx:118-124 | An entry is kept exactly when it falls in [from 00:00, to 23:59:59.999] and matches the chosen vehicle and booking. |
| FuelReport.KeptPaymentsContents | project/src/pages/reports/FuelReport.tsx:148-156 | A payment is kept exactly when it is in the window, names a booking, and that booking (the first with its id) used the chosen vehicle. It must also be the chosen booking. |
| FuelReport.UnlinkedPaymentNeverListed | project/src/pages/reports/FuelReport.tsx:151 | A payment without a booking is never kept. |
| FuelReport.TotalsOf | project/src/pages/reports/FuelReport.tsx:259-261 | No rows total zero litres and zero amount. |
| FuelReport.TotalsOfSnoc | project/src/pages/reports/FuelReport.tsx:259-261 | The reduce step: one more row adds its quantity and its total to the accumulator. |
| FuelReport.TotalsRearranged | project/src/pages/reports/FuelReport.tsx:259-261 | Reordering and renumbering rows keeps both totals. |
| FuelReport.TotalsOfMerged | project/src/pages/reports/FuelReport.tsx:259-261 | The totals of the merged rows are the entries' sums plus the payments' sums. |
| FuelReport.TotalsAreSourceTotals | project/src/pages/reports/FuelReport.tsx:259-261 | The report's litres and money totals equal the kept entries' quantities and amounts plus the kept payments' quantities and row totals. |
| FuelReport.LoadFuelPayments | project/src/pages/reports/FuelReport.tsx:54-94 | Every payment loaded is fuel basis with a booking. A payment is loaded exactly when it was fetched for a booking with an id and passes that filter. |
| FuelReport.LoadIsFilterOfFetched | project/src/pages/reports/FuelReport.tsx:54-94 | The loaded list is one filter over every fetched list, booking by booking, so payments keep fetch order and appear as often as they were fetched. |
| Ledger.OilTotal | project/src/pages/reports/CompanyReport.tsx:111-114 | The oil total is the sum over all listed driver payments of each one's share: its amount when it belongs to this booking and does not mention "final payment", otherwise 0. An empty list totals 0. |
| Ledger.ExpenseTotalSnoc | project/src/pages/bookings/BookingDetails.tsx:370-373 | The expense total is the left-to-right reduce: one more expense adds its amount. |
| Ledger.PaymentTotalSnoc | project/src/pages/bookings/BookingDetails.tsx:374-377 | The payment total is the left-to-right reduce: one more payment adds its amount. |
| Ledger.OilTotalSnoc | project/src/pages/reports/CompanyReport.tsx:111-114 | Appending a driver payment raises the oil total by its amount exactly when it is this booking's and does not mention "final payment". |
| Ledger.FinalPaymentNoteRecognised | project/src/pages/reports/DriverReport.tsx:622 | The note "Final payment for booking …" counts as a settling payment despite its capital letter. |
| Text.LessTransitive | project/src/pages/bookings/CreateBooking.tsx:65 | The name order used for sorting is transitive. |
| Text.LessTotal | project/src/pages/bookings/CreateBooking.tsx:65 | Any two distinct names are ordered one way or the other. |
| Text.CollapseIdempotent | project/src/pages/bookings/CreateBooking.tsx:64 | Collapsing white space twice is collapsing once. |
| Text.CollapseLetters | project/src/pages/bookings/CreateBooking.tsx:64 | Turning white-space runs into single spaces keeps every other character, in order. |
| Text.TrimLetters | project/src/pages/bookings/CreateBooking.tsx:62 | Trimming removes only white space. |

## Left out

- Persistence. Mongoose queries, `populate`, `save` and `countDocuments` become pure updates on one record or reads over a sequence. The read-then-write race in `updateBooking` is not modelled, and each call is atomic.
- BookingService.GetBookings: the `startDate` descending sort, `skip` and `limit` are not modelled. The page holds every match, and `total` is the full count.
- BookingService.UpdateBooking: models Mongoose dropping `undefined` keys from an update, so a field not sent keeps its value. A `balance` sent without either amount is written as sent. The `_id` is never written. Schema validation (`runValidators`) and an unknown id are not modelled, because the update is taken on a stored booking.
- BookingService.UpdateBookingPreservesInvariants: holds only for updates that send neither `balance` nor `statusHistory`. Either one lets a caller break the invariant (`ClientBalanceBreaksBalance`, `ClientLogBreaksHistory`).
- DriverReport.SettleAll: the settlements are returned as one list. The page awaits `addDriverPayment` trip by trip inside one `try`. So a failure at trip k leaves trips 1..k-1 paid and the rest unpaid, and this partial outcome is not modelled. Its `updateBooking` of `finalPaid` is not awaited either, so a payment can exist without the new `finalPaid`.
- BookingService.UpdateExpense and BookingService.UpdatePayment: `$set` with an `undefined` value is taken to leave the field as it was. Only the first element with the id is patched, as the positional operator does.
- bcrypt and JWT are foreign code. The password check is a caller-supplied predicate, the hash is a parameter, and the token is its claims. `getUserById`, `getUsers`, `updateUser` and `deleteUser` are plain CRUD and are not modelled.
- Clocks: `new Date()` is a `now` parameter. Date strings are integer timestamps. Local midnight, time zones, `toISOString` and `date-fns` month bounds are not modelled.
- JS numbers become unbounded reals. NaN from `parseFloat`, floating-point rounding and `toLocaleString` are not modelled. `Math.round` is floor(x + 1/2), so halves round up as in JS.
- `localeCompare` is approximated by lexicographic code-point order, and lower-casing is ASCII-only.
- Strings are sequences of Unicode scalar values, not of UTF-16 code units. A character outside the Basic Multilingual Plane counts once here and twice in JS. So `Text.Less`, `Text.Trim` and the 10-character phone rule of `CreateBooking.ValidationErrors` can disagree with the pages on such characters.
- FuelReport.SortByDate: the model's sort is stable, as `Array.prototype.sort` is. Stability itself is not stated in the contract.
- React state, effects, modals, toasts, file reading and the CSV/Excel/PDF/clipboard exports are not modelled. Display labels (names, routes, vehicle numbers) are left out of the row records.
- DriverReport.AssignedVehicles: the page builds an array in the order the vehicles appear. The model returns a map from vehicle id to trip count, so that display order is not stated.
- The driver report's `trips` count and `totalPaymentAmountAll` are a length and a plain sum, and are not modelled separately.
- Fetching is a parameter. The company report gets a map from driver id to that driver's payments, where a failed fetch means no entry. The fuel report's loader gets a map from booking id to payments, where a failed fetch is absent from the map. The driver report's rows take the driver payments as given. With a driver chosen, the page fetches that driver's list. With none chosen, it passes the list last loaded for some driver, so the other drivers' oil counts as 0 in their rows.
- BookingService.SlipsOf: the slip's `description`, "Duty slip uploaded at " followed by the ISO upload time, is not stored, because ISO date formatting is not modelled. The upload time itself is kept.
- CreateBooking.ValidationErrors: `bookingSource` and `journeyType` are enumerations in the model, so the schema's error for an unchosen source or journey type cannot arise. The optional `cityOfWork`, `vehicleCategoryId` and `advanceReason` fields have no rule and are sent as typed; they are left out of the form.
- CreateBooking.NormalizeForm: `addBooking` is assumed to deliver the request to `createBooking`. `ToNewBooking` picks the fields the server keeps.
- The on-mount city load is `SanitizeCities` applied to the server list, or to the saved list when the request fails. It is covered by `CreateBooking.SanitizeCities` and needs no member of its own.
- BookingDetails.CreatePayload: the amount is stated through `Round2`, and `PayloadMatchesPreview` ties it to the preview only when the derived quantity is already whole cents. Otherwise the sent amount can differ from the preview by the rounding of the quantity.

## Findings

The points below are readings of the code that the
proofs make explicit. They are behaviours the code really has, kept as
written, and not bugs claimed with a corrected twin:

- The company and driver reports compute a different payable for the same
  trip (`DriverReport.ReportsDisagreeExample`).
- `sanitizeCities` is not idempotent (`CreateBooking.SanitizeNotIdempotent`).
- A city added with a doubled inner space is selected in a form that does not
  list it (`CreateBooking.AddedCityNotListed`).
- The form's log entry is replaced by the server's (`CreateBooking.ServerKeepsBalanceButNotLog`).
- `updateBooking` writes a client-sent `balance` as-is when no amount is sent,
  and it writes a client-sent `statusHistory` too. Either one breaks an invariant
  (`BookingService.ClientBalanceBreaksBalance`, `BookingService.ClientLogBreaksHistory`).
  So `UpdateBookingPreservesInvariants` requires that neither is sent.

=== FILE: auth_service.dfy ===
/** The auth service's own rules: the phone variants used to find a user's
    driver or customer record, the link-once association step run at login,
    and the error branches of registration and login. Password hashing and
    token signing are foreign code; the hash is a parameter and the password
    check a caller-supplied predicate. */
module AuthService {
  import opened Wrappers
  import opened Ledger
  import Lists
  import Text

  predicate NoDuplicates(s: seq<string>) {
    forall i, j :: 0 <= i < j < |s| ==> s[i] != s[j]
  }

  /** Adds `x` unless it is already present (insertion into a JS `Set`). */
  function AddUnique(s: seq<string>, x: string): (r: seq<string>)
    requires NoDuplicates(s)
    ensures NoDuplicates(r)
    ensures forall y :: y in r <==> y in s || y == x
    ensures |r| <= |s| + 1
  {
    if x in s then s else s + [x]
  }

  /** `collectPhoneVariants`: the trimmed phone, its ASCII digits, and the
      digits behind a `+`, each once and only when non-empty. */
  function CollectPhoneVariants(phone: string): (r: seq<string>)
    ensures NoDuplicates(r)
    ensures forall x :: x in r ==> x != []
    ensures forall x :: x in r <==>
      (x == Text.Trim(phone) && x != [])
      || (Text.DigitsOf(Text.Trim(phone)) != [] && (x == Text.DigitsOf(Text.Trim(phone)) || x == "+" + Text.DigitsOf(Text.Trim(phone))))
    ensures |r| <= 3
    ensures Text.Trim(phone) == [] ==> r == []
  {
    var trimmed := Text.Trim(phone);
    var digits := Text.DigitsOf(trimmed);
    var first := if trimmed != [] then [trimmed] else [];
    if digits != [] then AddUnique(AddUnique(first, digits), "+" + digits) else first
  }

  /** A phone made only of digits is its own digits-only form. */
  lemma {:induction false} DigitsOfDigits(s: string)
    requires forall k :: 0 <= k < |s| ==> Text.IsDigit(s[k])
    ensures Text.DigitsOf(s) == s
  {
    if |s| > 0 {
      assert forall k :: 0 <= k < |s[1..]| ==> Text.IsDigit(s[1..][k]) by {
        forall k | 0 <= k < |s[1..]| ensures Text.IsDigit(s[1..][k]) { assert s[1..][k] == s[k + 1]; }
      }
      DigitsOfDigits(s[1..]);
      assert s == [s[0]] + s[1..];
    }
  }

  /** A phone with no white space at either end is its own trimmed form. */
  lemma TrimUntouched(s: string)
    requires s != [] && !Text.IsSpace(s[0]) && !Text.IsSpace(s[|s| - 1])
    ensures Text.Trim(s) == s
  {
    assert Text.LeadingSpaces(s) == 0;
    assert Text.ContentEnd(s) == |s|;
    assert s[0..|s|] == s;
  }

  /** The variants of `+` followed by digits are that phone and its digits. */
  lemma PlusPhoneVariants(d: string)
    requires d != [] && forall k :: 0 <= k < |d| ==> Text.IsDigit(d[k])
    ensures forall x :: x in CollectPhoneVariants("+" + d) <==> x == "+" + d || x == d
  {
    var p := "+" + d;
    assert p[|p| - 1] == d[|d| - 1];
    TrimUntouched(p);
    DigitsOfDigits(d);
    assert p[1..] == d;
    assert Text.DigitsOf(p) == Text.DigitsOf(p[1..]);
  }

  /** Matching is literal: a number written with `+` and a country code
      yields itself and its digits with the code kept, never a shorter
      local number. */
  lemma CountryCodeIsKept(d: string, local: string)
    requires d != [] && forall k :: 0 <= k < |d| ==> Text.IsDigit(d[k])
    requires |local| < |d|
    ensures "+" + d in CollectPhoneVariants("+" + d)
    ensures d in CollectPhoneVariants("+" + d)
    ensures local !in CollectPhoneVariants("+" + d)
  {
    PlusPhoneVariants(d);
  }

  /** A driver or customer record, as far as the lookup reads it. */
  datatype Contact = Contact(id: Id, phone: string)

  /** `findOne({ phone: { $in: variants } })`: the first record whose phone is
      one of the variants. */
  function FindByPhone(records: seq<Contact>, variants: seq<string>): (r: Option<Id>)
    ensures r.None? <==> forall c :: c in records ==> c.phone !in variants
    ensures r.Some? ==> exists c :: c in records && c.id == r.value && c.phone in variants
  {
    match Lists.Find(records, true, (c: Contact) => c.phone in variants)
    case None => None
    case Some(c) => Some(c.id)
  }

  datatype User = User(
    id: Id,
    email: string,
    passwordHash: string,
    name: string,
    phone: string,
    role: Role,
    driverId: Option<Id>,
    customerId: Option<Id>)

  /** The ids returned to the caller, the user as it now stands, and whether
      it was saved. */
  datatype SyncResult = SyncResult(user: User, driverId: Option<Id>, customerId: Option<Id>, saved: bool)

  /** `syncUserAssociations`: a driver without a driver link, or a customer
      without a customer link, is linked to the first record sharing a phone
      variant; the user is saved only when a link was made. */
  function SyncUserAssociations(u: User, drivers: seq<Contact>, customers: seq<Contact>): (r: SyncResult)
    ensures r.driverId == r.user.driverId && r.customerId == r.user.customerId
    ensures !r.saved ==> r.user == u
    ensures r.saved ==> (
      || (u.role == Driver && u.driverId.None? && r.user == u.(driverId := r.driverId) && r.driverId.Some?)
      || (u.role == Customer && u.customerId.None? && r.user == u.(customerId := r.customerId) && r.customerId.Some?))
    ensures u.role == Driver && u.driverId.None? ==> r.driverId == FindByPhone(drivers, CollectPhoneVariants(u.phone))
    ensures u.role == Customer && u.customerId.None? ==> r.customerId == FindByPhone(customers, CollectPhoneVariants(u.phone))
    ensures u.role !in {Driver, Customer} ==> r == SyncResult(u, u.driverId, u.customerId, false)
  {
    var foundDriver :=
      if u.role == Driver && u.driverId.None? then FindByPhone(drivers, CollectPhoneVariants(u.phone)) else None;
    var withDriver := if foundDriver.Some? then u.(driverId := foundDriver) else u;
    var foundCustomer :=
      if u.role == Customer && u.customerId.None? then FindByPhone(customers, CollectPhoneVariants(u.phone)) else None;
    var linked := if foundCustomer.Some? then withDriver.(customerId := foundCustomer) else withDriver;
    SyncResult(linked, linked.driverId, linked.customerId, foundDriver.Some? || foundCustomer.Some?)
  }

  /** Link once: running the step again on its own result writes nothing and
      changes nothing. */
  lemma SyncIdempotent(u: User, drivers: seq<Contact>, customers: seq<Contact>)
    ensures var first := SyncUserAssociations(u, drivers, customers);
            var second := SyncUserAssociations(first.user, drivers, customers);
            !second.saved && second.user == first.user
  {
    var first := SyncUserAssociations(u, drivers, customers);
    if first.saved {
      assert first.user.role == u.role;
    } else {
      assert first.user == u;
    }
  }

  /** A linked driver or customer is not looked up again: the result does not
      depend on the records at all. */
  lemma LinkedUserSkipsLookup(u: User, d1: seq<Contact>, d2: seq<Contact>, c1: seq<Contact>, c2: seq<Contact>)
    requires (u.role == Driver && u.driverId.Some?) || (u.role == Customer && u.customerId.Some?)
    ensures SyncUserAssociations(u, d1, c1) == SyncUserAssociations(u, d2, c2)
    ensures !SyncUserAssociations(u, d1, c1).saved
  {
  }

  /** A driver consults only driver records, a customer only customer records. */
  lemma RoleConsultsOwnCollection(u: User, d1: seq<Contact>, d2: seq<Contact>, c1: seq<Contact>, c2: seq<Contact>)
    ensures u.role == Driver ==> SyncUserAssociations(u, d1, c1) == SyncUserAssociations(u, d1, c2)
    ensures u.role == Customer ==> SyncUserAssociations(u, d1, c1) == SyncUserAssociations(u, d2, c1)
  {
  }

  /** A stored local number does not match a login with the country code:
      "9876543210" is not found from "+919876543210". */
  lemma LocalNumberDoesNotMatchCountryCode(id: Id, d: string, local: string)
    requires d == "919876543210" && local == "9876543210"
    ensures FindByPhone([Contact(id, local)], CollectPhoneVariants("+" + d)) == None
  {
    assert forall k :: 0 <= k < |d| ==> Text.IsDigit(d[k]);
    CountryCodeIsKept(d, local);
    assert forall c :: c in [Contact(id, local)] ==> c.phone == local;
  }

  datatype Registration = Registration(
    email: string,
    name: string,
    phone: string,
    role: Role,
    driverId: Option<Id>,
    customerId: Option<Id>)

  const EmailInUse: string := "Email in use"
  const InvalidCredentials: string := "Invalid credentials"

  /** `registerUser`: refused when the email is taken; otherwise the new user
      with the given hash in place of the password. */
  function RegisterUser(users: seq<User>, data: Registration, newId: Id, hashed: string): (r: Result<User, string>)
    ensures r.Failure? <==> exists u :: u in users && u.email == data.email
    ensures r.Failure? ==> r.error == EmailInUse
    ensures r.Success? ==> (
      && r.value.email == data.email && r.value.passwordHash == hashed && r.value.id == newId
      && r.value.name == data.name && r.value.phone == data.phone
      && r.value.role == data.role && r.value.driverId == data.driverId && r.value.customerId == data.customerId)
  {
    if exists u :: u in users && u.email == data.email then Failure(EmailInUse)
    else Success(User(newId, data.email, hashed, data.name, data.phone, data.role, data.driverId, data.customerId))
  }

  ghost predicate EmailsUnique(users: seq<User>) {
    forall i, j :: 0 <= i < j < |users| ==> users[i].email != users[j].email
  }

  /** Registration keeps emails unique across the stored users. */
  lemma RegisterKeepsEmailsUnique(users: seq<User>, data: Registration, newId: Id, hashed: string)
    requires EmailsUnique(users)
    requires RegisterUser(users, data, newId, hashed).Success?
    ensures EmailsUnique(users + [RegisterUser(users, data, newId, hashed).value])
  {
    var all := users + [RegisterUser(users, data, newId, hashed).value];
    forall i, j | 0 <= i < j < |all| ensures all[i].email != all[j].email {
      if j == |users| {
        assert all[i] in users;
      } else {
        assert all[i] == users[i] && all[j] == users[j];
      }
    }
  }

  /** What the signed token carries. */
  datatype Claims = Claims(userId: Id, role: Role, driverId: Option<Id>, customerId: Option<Id>)

  datatype Session = Session(claims: Claims, user: User, saved: bool)

  /** The key `findOne({ email })` looks users up by. */
  function EmailOf(u: User): string {
    u.email
  }

  /** `loginUser`: refused with one message whether the email is unknown or
      the password does not match; otherwise the associations are synced and
      their ids go into the token. */
  function LoginUser(users: seq<User>, email: string, password: string, passwordMatches: (string, string) -> bool,
                     drivers: seq<Contact>, customers: seq<Contact>): (r: Result<Session, string>)
    ensures r.Failure? ==> r.error == InvalidCredentials
    ensures r.Success? <==>
      match Lists.Find(users, email, EmailOf)
      case Some(u) => passwordMatches(password, u.passwordHash)
      case None => false
    ensures r.Success? ==> r.value.user.email == email && passwordMatches(password, r.value.user.passwordHash)
    ensures r.Success? ==> (
      && r.value.claims.userId == r.value.user.id
      && r.value.claims.driverId == r.value.user.driverId
      && r.value.claims.customerId == r.value.user.customerId
      && r.value.claims.role == r.value.user.role)
    ensures r.Success? ==> (
      && Lists.Find(users, email, EmailOf).Some?
      && r.value.user.id == Lists.Find(users, email, EmailOf).value.id
      && SyncUserAssociations(Lists.Find(users, email, EmailOf).value, drivers, customers)
         == SyncResult(r.value.user, r.value.claims.driverId, r.value.claims.customerId, r.value.saved))
  {
    match Lists.Find(users, email, EmailOf)
    case None => Failure(InvalidCredentials)
    case Some(u) =>
      if !passwordMatches(password, u.passwordHash) then Failure(InvalidCredentials)
      else
        var s := SyncUserAssociations(u, drivers, customers);
        Success(Session(Claims(u.id, u.role, s.driverId, s.customerId), s.user, s.saved))
  }

  /** A user just registered can log in with a password matching the stored
      hash, and the token names that user. */
  lemma LoginAfterRegister(users: seq<User>, data: Registration, newId: Id, hashed: string, password: string,
                           passwordMatches: (string, string) -> bool, drivers: seq<Contact>, customers: seq<Contact>)
    requires RegisterUser(users, data, newId, hashed).Success?
    requires passwordMatches(password, hashed)
    ensures var r := LoginUser(users + [RegisterUser(users, data, newId, hashed).value], data.email, password,
                               passwordMatches, drivers, customers);
            r.Success? && r.value.claims.userId == newId && r.value.claims.role == data.role
  {
    var u := RegisterUser(users, data, newId, hashed).value;
    var all := users + [u];
    assert forall i :: 0 <= i < |users| ==> EmailOf(all[i]) != data.email by {
      forall i | 0 <= i < |users| ensures EmailOf(all[i]) != data.email {
        assert all[i] == users[i] && users[i] in users;
      }
    }
    var k := Lists.FirstIndex(all, data.email, EmailOf);
    assert all[|users|] == u;
    assert k == Some(|users|);
  }
}

=== FILE: booking_details.dfy ===
/** The booking details screen: the fuel preview of the driver-payment form,
    the payloads its submit sends, the driver-payment total it shows, the
    displayed balance, and the local list updates after each request. */
module BookingDetails {
  import opened Wrappers
  import opened Ledger
  import Lists

  /** `Math.round(x * 100) / 100`; `Math.round` rounds halves up. */
  function Round2(x: real): (r: real)
    ensures x - 0.005 < r <= x + 0.005
    ensures (r * 100.0).Floor as real == r * 100.0
  {
    ((x * 100.0 + 0.5).Floor as real) / 100.0
  }

  /** An amount already in whole hundredths is left alone. */
  lemma Round2Exact(x: real)
    requires (x * 100.0).Floor as real == x * 100.0
    ensures Round2(x) == x
  {
    var n := (x * 100.0).Floor;
    assert n as real <= x * 100.0 + 0.5 < (n + 1) as real;
    assert (x * 100.0 + 0.5).Floor == n;
  }

  /** A fuel-basis amount: litres times rate, rounded to cents. */
  function FuelCost(qty: Amount, rate: Amount): Amount {
    Round2(qty * rate)
  }

  /** The driver-payment form. Text inputs holding a number are `Some`, empty
      ones `None` (a non-numeric entry is not modelled). */
  datatype DriverPayForm = DriverPayForm(
    mode: PaymentMode,
    amount: Option<Amount>,
    fuelQuantity: Option<Amount>,
    fuelRate: Option<Amount>,
    distanceKm: Option<Amount>,
    mileage: Option<Amount>,
    description: string)

  /** Distance and mileage are both entered and the mileage is positive. */
  predicate HasDistance(f: DriverPayForm) {
    f.distanceKm.Some? && f.mileage.Some? && f.mileage.value > 0.0
  }

  /** `derivedFuelQty`: litres burnt over the entered distance. */
  function DerivedFuelQty(f: DriverPayForm): (r: Option<Amount>)
    ensures r.Some? <==> f.mode == FuelBasis && HasDistance(f)
    ensures r.Some? ==> r.value * f.mileage.value == f.distanceKm.value
  {
    if f.mode == FuelBasis && HasDistance(f) then Some(f.distanceKm.value / f.mileage.value) else None
  }

  /** `effectiveFuelQty`: the derived quantity, else the entered one, else 0. */
  function EffectiveFuelQty(f: DriverPayForm): (r: Amount)
    ensures DerivedFuelQty(f).Some? ==> r == DerivedFuelQty(f).value
    ensures DerivedFuelQty(f).None? ==> r == OrZero(f.fuelQuantity)
  {
    match DerivedFuelQty(f)
    case Some(q) => q
    case None => if f.fuelQuantity.Some? then f.fuelQuantity.value else 0.0
  }

  /** `computedFuelAmount`, the preview: litres times rate for a fuel-basis
      payment with a non-zero quantity and an entered rate, else 0. */
  function ComputedFuelAmount(f: DriverPayForm): (r: Amount)
    ensures r != 0.0 ==> f.mode == FuelBasis && f.fuelRate.Some? && r == EffectiveFuelQty(f) * f.fuelRate.value
    ensures f.mode == FuelBasis && f.fuelRate.Some? ==> r == EffectiveFuelQty(f) * f.fuelRate.value
  {
    var q := EffectiveFuelQty(f);
    if f.mode == FuelBasis && q != 0.0 && f.fuelRate.Some? then q * f.fuelRate.value else 0.0
  }

  /** The request body of a driver-payment create or update; `None` fields
      are left out of the request. */
  datatype Payload = Payload(
    driverId: Option<Id>,
    mode: PaymentMode,
    description: string,
    amount: Option<Amount>,
    fuelQuantity: Option<Amount>,
    fuelRate: Option<Amount>,
    distanceKm: Option<Amount>,
    mileage: Option<Amount>)

  /** The fuel fields both submit paths send: distance and mileage when a
      positive mileage is entered with a distance, the entered quantity only
      when no non-zero distance goes along, and the rate when entered. */
  function FuelFields(f: DriverPayForm, driverId: Option<Id>): (r: Payload)
    ensures r.driverId == driverId && r.mode == f.mode && r.description == f.description && r.amount.None?
    ensures r.fuelRate == f.fuelRate
    ensures r.distanceKm.Some? <==> HasDistance(f)
    ensures r.distanceKm.Some? ==> r.distanceKm == f.distanceKm && r.mileage == f.mileage
    ensures r.mileage.Some? ==> r.distanceKm.Some?
    ensures r.fuelQuantity.Some? ==> r.fuelQuantity == f.fuelQuantity && !Truthy(r.distanceKm)
    ensures f.fuelQuantity.Some? && !Truthy(r.distanceKm) ==> r.fuelQuantity == f.fuelQuantity
  {
    var dist := if HasDistance(f) then f.distanceKm else None;
    var mileage := if HasDistance(f) then f.mileage else None;
    var qty := if !Truthy(dist) && f.fuelQuantity.Some? then f.fuelQuantity else None;
    Payload(driverId, f.mode, f.description, None, qty, f.fuelRate, dist, mileage)
  }

  /** A non-fuel payment sends its amount, an empty one as 0. */
  function PlainPayload(f: DriverPayForm, driverId: Option<Id>): Payload {
    Payload(driverId, f.mode, f.description, Some(f.amount.GetOr(0.0)), None, None, None, None)
  }

  /** The create payload. A fuel-basis payment with a non-zero distance
      sends the derived quantity rounded to cents instead of the entered
      one, and the amount is quantity times rate, rounded, whenever both are
      non-zero. */
  function CreatePayload(f: DriverPayForm, driverId: Id): (r: Payload)
    ensures r.driverId == Some(driverId) && r.mode == f.mode && r.description == f.description
    ensures f.mode != FuelBasis ==>
      r.amount == Some(f.amount.GetOr(0.0))
      && r.fuelQuantity.None? && r.fuelRate.None? && r.distanceKm.None? && r.mileage.None?
    ensures f.mode == FuelBasis ==> r.fuelRate == f.fuelRate
    ensures f.mode == FuelBasis ==> (r.distanceKm.Some? <==> DerivedFuelQty(f).Some?)
    ensures f.mode == FuelBasis && r.distanceKm.Some? ==> r.distanceKm == f.distanceKm && r.mileage == f.mileage
    ensures f.mode == FuelBasis && r.mileage.Some? ==> r.distanceKm.Some?
    ensures f.mode == FuelBasis && DerivedFuelQty(f).Some? && f.distanceKm.value != 0.0 ==>
      r.fuelQuantity == Some(Round2(DerivedFuelQty(f).value))
    ensures f.mode == FuelBasis && !(DerivedFuelQty(f).Some? && f.distanceKm.value != 0.0) ==>
      r.fuelQuantity == f.fuelQuantity
    ensures f.mode == FuelBasis ==> (r.amount.Some? <==> Truthy(r.fuelQuantity) && Truthy(f.fuelRate))
    ensures f.mode == FuelBasis && r.amount.Some? ==>
      r.amount.value == FuelCost(r.fuelQuantity.value, f.fuelRate.value)
  {
    if f.mode != FuelBasis then PlainPayload(f, Some(driverId))
    else
      var p := FuelFields(f, Some(driverId));
      var qty := if Truthy(p.distanceKm) && Truthy(p.mileage) && p.mileage.value > 0.0
                 then Some(Round2(p.distanceKm.value / p.mileage.value))
                 else p.fuelQuantity;
      var amount := if Truthy(qty) && Truthy(f.fuelRate) then Some(FuelCost(qty.value, f.fuelRate.value)) else None;
      Payload(p.driverId, p.mode, p.description, amount, qty, f.fuelRate, p.distanceKm, p.mileage)
  }

  /** The update payload: the same fuel fields without derivation, and no
      amount for a fuel-basis payment (the backend recomputes it). */
  function EditPayload(f: DriverPayForm): (r: Payload)
    ensures r.driverId.None? && r.mode == f.mode && r.description == f.description
    ensures f.mode == FuelBasis ==> r.amount.None? && r.fuelRate == f.fuelRate
    ensures f.mode == FuelBasis ==> (r.distanceKm.Some? <==> DerivedFuelQty(f).Some?)
    ensures f.mode == FuelBasis && r.distanceKm.Some? ==> r.distanceKm == f.distanceKm && r.mileage == f.mileage
    ensures f.mode == FuelBasis && r.mileage.Some? ==> r.distanceKm.Some?
    ensures f.mode == FuelBasis && r.fuelQuantity.Some? ==> r.fuelQuantity == f.fuelQuantity && !Truthy(r.distanceKm)
    ensures f.mode == FuelBasis && f.fuelQuantity.Some? && !Truthy(r.distanceKm) ==> r.fuelQuantity == f.fuelQuantity
    ensures f.mode != FuelBasis ==>
      r.amount == Some(f.amount.GetOr(0.0))
      && r.fuelQuantity.None? && r.fuelRate.None? && r.distanceKm.None? && r.mileage.None?
  {
    if f.mode == FuelBasis then FuelFields(f, None) else PlainPayload(f, None)
  }

  /** When the derived quantity is a whole number of hundredths, the amount
      sent is the preview's litres times rate, rounded to cents. */
  lemma PayloadMatchesPreview(f: DriverPayForm, driverId: Id)
    requires DerivedFuelQty(f).Some? && f.distanceKm.value != 0.0 && Truthy(f.fuelRate)
    requires Round2(DerivedFuelQty(f).value) == DerivedFuelQty(f).value
    ensures ComputedFuelAmount(f) == EffectiveFuelQty(f) * f.fuelRate.value
    ensures CreatePayload(f, driverId).amount == Some(FuelCost(EffectiveFuelQty(f), f.fuelRate.value))
  {
    var q := DerivedFuelQty(f).value;
    assert q != 0.0;
    assert CreatePayload(f, driverId).fuelQuantity == Some(q);
  }

  /** 100 km at 10 km per litre and 90 per litre: 10 litres, 900 to pay. */
  lemma FuelExample(description: string, driverId: Id)
    ensures var p := CreatePayload(DriverPayForm(FuelBasis, None, None, Some(90.0), Some(100.0), Some(10.0), description), driverId);
            p.fuelQuantity == Some(10.0) && p.amount == Some(900.0)
  {
    Round2Exact(10.0);
    Round2Exact(900.0);
  }

  /** What the submit does. */
  datatype Editing = NotEditing | EditingFinalPaid | EditingPayment(id: Id)

  datatype Action = NoAction | SetFinalPaid(amount: Amount) | UpdatePayment(id: Id, payload: Payload) | CreatePayment(payload: Payload)

  /** The driver-payment submit: nothing without the booking's driver;
      editing the settlement row writes `finalPaid`; otherwise an update or a
      create request. */
  function SubmitDriverPayment(f: DriverPayForm, driver: Option<Id>, editing: Editing): (r: Action)
    ensures !Picked(driver) ==> r == NoAction
    ensures Picked(driver) && editing == EditingFinalPaid ==> r == SetFinalPaid(f.amount.GetOr(0.0))
    ensures Picked(driver) && editing.EditingPayment? ==> r == UpdatePayment(editing.id, EditPayload(f))
    ensures Picked(driver) && editing == NotEditing ==> r == CreatePayment(CreatePayload(f, driver.value))
  {
    if !Picked(driver) then NoAction
    else
      match editing
      case EditingFinalPaid => SetFinalPaid(f.amount.GetOr(0.0))
      case EditingPayment(id) => UpdatePayment(id, EditPayload(f))
      case NotEditing => CreatePayment(CreatePayload(f, driver.value))
  }

  /** What a fuel-basis submit sends: an edit never carries an amount (the
      backend recomputes it), and a create with a derived quantity and a
      rate carries that quantity rounded to cents and its cost. */
  lemma FuelSubmitAmounts(f: DriverPayForm, driver: Id, editing: Editing)
    requires driver != [] && f.mode == FuelBasis
    ensures editing.EditingPayment? ==>
      var r := SubmitDriverPayment(f, Some(driver), editing);
      r.UpdatePayment? && r.payload.driverId.None? && r.payload.amount.None?
    ensures editing == NotEditing && DerivedFuelQty(f).Some? && f.distanceKm.value != 0.0 && Truthy(f.fuelRate)
            && Round2(DerivedFuelQty(f).value) != 0.0 ==>
      var r := SubmitDriverPayment(f, Some(driver), editing);
      r.CreatePayment? && r.payload.driverId == Some(driver)
      && r.payload.fuelQuantity == Some(Round2(DerivedFuelQty(f).value))
      && r.payload.amount == Some(FuelCost(Round2(DerivedFuelQty(f).value), f.fuelRate.value))
  {
  }

  /** `totalDriverPayments`: the amount of the first settling payment if
      there is one, else the sum of all driver payments. */
  function TotalDriverPayments(dps: seq<DriverPayment>): (r: Amount)
    ensures (forall i :: 0 <= i < |dps| ==> !MentionsFinalPayment(dps[i].description)) ==>
      r == Lists.Sum(dps, (p: DriverPayment) => p.amount)
    ensures (exists i :: 0 <= i < |dps| && MentionsFinalPayment(dps[i].description)) ==>
      (exists i :: 0 <= i < |dps| && MentionsFinalPayment(dps[i].description) && r == dps[i].amount
        && forall j :: 0 <= j < i ==> !MentionsFinalPayment(dps[j].description))
  {
    match Lists.FirstIndex(dps, true, (p: DriverPayment) => MentionsFinalPayment(p.description))
    case Some(i) => dps[i].amount
    case None => Lists.Sum(dps, (p: DriverPayment) => p.amount)
  }

  /** The created payment goes to the front of the list: a settling one
      becomes the total, another one adds to the sum unless a settling one
      is already shown. */
  lemma {:induction false} TotalAfterCreate(p: DriverPayment, dps: seq<DriverPayment>)
    ensures MentionsFinalPayment(p.description) ==> TotalDriverPayments([p] + dps) == p.amount
    ensures !MentionsFinalPayment(p.description) && (exists i :: 0 <= i < |dps| && MentionsFinalPayment(dps[i].description)) ==>
      TotalDriverPayments([p] + dps) == TotalDriverPayments(dps)
    ensures !MentionsFinalPayment(p.description) && (forall i :: 0 <= i < |dps| ==> !MentionsFinalPayment(dps[i].description)) ==>
      TotalDriverPayments([p] + dps) == p.amount + TotalDriverPayments(dps)
  {
    var s := [p] + dps;
    assert s[1..] == dps;
    var key := (q: DriverPayment) => MentionsFinalPayment(q.description);
    Lists.FirstIndexCons(p, dps, true, key);
  }

  /** `Balance` on the summary card: the stored balance less the payments
      collected. For a booking whose balance is derived, that is what the
      customer still owes. */
  function DisplayedBalance(b: Booking): (r: Amount)
    ensures BalanceConsistent(b) ==> r == b.totalAmount - b.advanceReceived - PaymentTotal(b)
  {
    b.balance - PaymentTotal(b)
  }

  /** `removeDutySlip`: drops the slips with this id. */
  function RemoveDutySlip(b: Booking, id: Id): (r: Booking)
    ensures r.(dutySlips := b.dutySlips) == b
    ensures forall s :: s in r.dutySlips <==> s in b.dutySlips && s.id != id
    ensures forall s: DutySlip :: s.id != id ==> multiset(r.dutySlips)[s] == multiset(b.dutySlips)[s]
  {
    b.(dutySlips := Lists.RemoveKey(b.dutySlips, id, (s: DutySlip) => s.id))
  }

  /** The upload handler keeps the existing slips and appends the new ones. */
  function AppendDutySlips(b: Booking, added: seq<DutySlip>): (r: Booking)
    ensures r.(dutySlips := b.dutySlips) == b
    ensures |r.dutySlips| == |b.dutySlips| + |added|
    ensures r.dutySlips[..|b.dutySlips|] == b.dutySlips && r.dutySlips[|b.dutySlips|..] == added
  {
    b.(dutySlips := b.dutySlips + added)
  }

  /** Removing a slip right after uploading it, when its id is new, restores
      the booking. */
  lemma RemoveUndoesUpload(b: Booking, s: DutySlip)
    requires forall i :: 0 <= i < |b.dutySlips| ==> b.dutySlips[i].id != s.id
    ensures RemoveDutySlip(AppendDutySlips(b, [s]), s.id) == b
  {
    var keyOf := (d: DutySlip) => d.id;
    Lists.RemoveKeyAppend(b.dutySlips, [s], s.id, keyOf);
    Lists.RemoveKeyAbsent(b.dutySlips, s.id, keyOf);
    Lists.RemoveKeyOwn(s, keyOf);
  }

  /** The settle button swaps the record the server returns in for every
      entry with the clicked payment's id. */
  function ReplaceDriverPayment(dps: seq<DriverPayment>, id: Id, updated: DriverPayment): (r: seq<DriverPayment>)
    ensures |r| == |dps|
    ensures forall i :: 0 <= i < |dps| ==> r[i] == (if dps[i].id == id then updated else dps[i])
  {
    Lists.ReplaceKey(dps, id, (p: DriverPayment) => p.id, updated)
  }

  /** When the server returns the settled record under its own id, deleting
      it afterwards leaves the same list as deleting it unsettled. */
  lemma SettleThenDelete(dps: seq<DriverPayment>, id: Id, updated: DriverPayment)
    requires updated.id == id
    ensures DeleteDriverPayment(ReplaceDriverPayment(dps, id, updated), id) == DeleteDriverPayment(dps, id)
  {
    Lists.RemoveReplaced(dps, id, (p: DriverPayment) => p.id, updated);
  }

  /** The delete button drops the payments with this id. */
  function DeleteDriverPayment(dps: seq<DriverPayment>, id: Id): (r: seq<DriverPayment>)
    ensures forall p :: p in r <==> p in dps && p.id != id
    ensures forall p: DriverPayment :: p.id != id ==> multiset(r)[p] == multiset(dps)[p]
  {
    Lists.RemoveKey(dps, id, (p: DriverPayment) => p.id)
  }

  /** Deleting a payment right after creating it, when its id is new,
      restores the list. */
  lemma DeleteUndoesCreate(created: DriverPayment, dps: seq<DriverPayment>)
    requires forall i :: 0 <= i < |dps| ==> dps[i].id != created.id
    ensures DeleteDriverPayment([created] + dps, created.id) == dps
  {
    var keyOf := (p: DriverPayment) => p.id;
    Lists.RemoveKeyAppend([created], dps, created.id, keyOf);
    Lists.RemoveKeyAbsent(dps, created.id, keyOf);
    Lists.RemoveKeyOwn(created, keyOf);
  }
}

=== FILE: booking_service.dfy ===
/** The backend booking service: creation, partial update with balance
    recomputation, append-only status changes, role-scoped reads, and the
    array updates on a booking's expenses, payments and duty slips. Each
    write is a function from the stored booking to the stored booking after
    the write; reads run over the collection as a sequence. */
module BookingService {
  import opened Wrappers
  import opened Ledger
  import Lists

  /** The author the service records for changes it makes on its own. */
  const SystemAuthor: string := "System"

  /** What a caller supplies to create a booking. */
  datatype NewBooking = NewBooking(
    id: Id,
    bookingSource: BookingSource,
    companyId: Option<Id>,
    driverId: Option<Id>,
    vehicleId: Option<Id>,
    customerId: Option<Id>,
    pickupLocation: string,
    dropLocation: string,
    startDate: Timestamp,
    endDate: Timestamp,
    totalAmount: Amount,
    advanceReceived: Amount,
    payments: seq<Payment>,
    finalPaid: Option<Amount>)

  /** `createBooking`: a new booking starts `booked`, with its balance
      derived, nothing spent, no duty slips, unbilled, and a log holding the
      single creation entry. */
  function CreateBooking(data: NewBooking, now: Timestamp): (b: Booking)
    ensures BalanceConsistent(b) && HistoryConsistent(b)
    ensures b.balance == data.totalAmount - data.advanceReceived
    ensures b.status == Booked && b.statusHistory == [StatusChange(Booked, now, SystemAuthor)]
    ensures b.expenses == [] && b.dutySlips == [] && !b.billed
    ensures b.id == data.id && b.totalAmount == data.totalAmount && b.advanceReceived == data.advanceReceived
    ensures b.driverId == data.driverId && b.customerId == data.customerId && b.payments == data.payments
    ensures b.bookingSource == data.bookingSource && b.companyId == data.companyId && b.vehicleId == data.vehicleId
    ensures b.pickupLocation == data.pickupLocation && b.dropLocation == data.dropLocation
    ensures b.startDate == data.startDate && b.endDate == data.endDate && b.finalPaid == data.finalPaid
  {
    Booking(
      id := data.id,
      bookingSource := data.bookingSource,
      companyId := data.companyId,
      driverId := data.driverId,
      vehicleId := data.vehicleId,
      customerId := data.customerId,
      pickupLocation := data.pickupLocation,
      dropLocation := data.dropLocation,
      startDate := data.startDate,
      endDate := data.endDate,
      totalAmount := data.totalAmount,
      advanceReceived := data.advanceReceived,
      balance := data.totalAmount - data.advanceReceived,
      status := Booked,
      statusHistory := [StatusChange(Booked, now, SystemAuthor)],
      expenses := [],
      payments := data.payments,
      dutySlips := [],
      billed := false,
      finalPaid := data.finalPaid)
  }

  /** A partial update: every field of the booking but its id, each `None`
      when the caller did not send it. The optional references are
      themselves optional, so `Some(None)` clears one. */
  datatype BookingPatch = BookingPatch(
    bookingSource: Option<BookingSource>,
    companyId: Option<Option<Id>>,
    driverId: Option<Option<Id>>,
    vehicleId: Option<Option<Id>>,
    customerId: Option<Option<Id>>,
    pickupLocation: Option<string>,
    dropLocation: Option<string>,
    startDate: Option<Timestamp>,
    endDate: Option<Timestamp>,
    totalAmount: Option<Amount>,
    advanceReceived: Option<Amount>,
    balance: Option<Amount>,
    status: Option<Status>,
    statusHistory: Option<seq<StatusChange>>,
    expenses: Option<seq<Expense>>,
    payments: Option<seq<Payment>>,
    dutySlips: Option<seq<DutySlip>>,
    billed: Option<bool>,
    finalPaid: Option<Option<Amount>>)

  /** The patch that sends nothing. */
  const NoChanges := BookingPatch(None, None, None, None, None, None, None, None, None, None,
                                  None, None, None, None, None, None, None, None, None)

  /** The refusal when one update both sets the status log and appends to it. */
  const HistoryConflict := "Updating the path 'statusHistory' would create a conflict"

  /** The status log after a change to `s`. */
  function Appended(history: seq<StatusChange>, s: Status, now: Timestamp, author: string): (r: seq<StatusChange>)
    ensures |r| == |history| + 1 && r[..|history|] == history
    ensures r[|history|] == StatusChange(s, now, author)
  {
    history + [StatusChange(s, now, author)]
  }

  /** `updateBooking` on an existing booking. Every field the caller sent
      is written. A supplied amount on either side recomputes the balance
      from the supplied value and the stored value of the other side
      (overriding any balance the caller sent); a supplied status is set
      and appended to the log, which the store refuses when the caller
      also sent a log of its own. */
  function UpdateBooking(b: Booking, u: BookingPatch, now: Timestamp): (r: Result<Booking, string>)
    ensures r.Failure? <==> u.status.Some? && u.statusHistory.Some?
    ensures r.Failure? ==> r.error == HistoryConflict
    ensures r.Success? ==> r.value.id == b.id
    ensures r.Success? ==>
      r.value.totalAmount == u.totalAmount.GetOr(b.totalAmount)
      && r.value.advanceReceived == u.advanceReceived.GetOr(b.advanceReceived)
    ensures r.Success? && (u.totalAmount.Some? || u.advanceReceived.Some?) ==> BalanceConsistent(r.value)
    ensures r.Success? && u.totalAmount.None? && u.advanceReceived.None? ==>
      r.value.balance == u.balance.GetOr(b.balance)
    ensures r.Success? && u.status.Some? ==>
      r.value.status == u.status.value
      && r.value.statusHistory == Appended(b.statusHistory, u.status.value, now, SystemAuthor)
    ensures r.Success? && u.status.None? ==>
      r.value.status == b.status && r.value.statusHistory == u.statusHistory.GetOr(b.statusHistory)
    ensures r.Success? ==>
      r.value.bookingSource == u.bookingSource.GetOr(b.bookingSource)
      && r.value.companyId == u.companyId.GetOr(b.companyId)
      && r.value.driverId == u.driverId.GetOr(b.driverId)
      && r.value.vehicleId == u.vehicleId.GetOr(b.vehicleId)
      && r.value.customerId == u.customerId.GetOr(b.customerId)
    ensures r.Success? ==>
      r.value.pickupLocation == u.pickupLocation.GetOr(b.pickupLocation)
      && r.value.dropLocation == u.dropLocation.GetOr(b.dropLocation)
      && r.value.startDate == u.startDate.GetOr(b.startDate)
      && r.value.endDate == u.endDate.GetOr(b.endDate)
    ensures r.Success? ==>
      r.value.expenses == u.expenses.GetOr(b.expenses)
      && r.value.payments == u.payments.GetOr(b.payments)
      && r.value.dutySlips == u.dutySlips.GetOr(b.dutySlips)
      && r.value.billed == u.billed.GetOr(b.billed)
      && r.value.finalPaid == u.finalPaid.GetOr(b.finalPaid)
  {
    if u.status.Some? && u.statusHistory.Some? then Failure(HistoryConflict)
    else
      var total := u.totalAmount.GetOr(b.totalAmount);
      var advance := u.advanceReceived.GetOr(b.advanceReceived);
      var balance :=
        if u.totalAmount.Some? || u.advanceReceived.Some? then total - advance
        else u.balance.GetOr(b.balance);
      var history :=
        if u.status.Some? then Appended(b.statusHistory, u.status.value, now, SystemAuthor)
        else u.statusHistory.GetOr(b.statusHistory);
      Success(Booking(
        id := b.id,
        bookingSource := u.bookingSource.GetOr(b.bookingSource),
        companyId := u.companyId.GetOr(b.companyId),
        driverId := u.driverId.GetOr(b.driverId),
        vehicleId := u.vehicleId.GetOr(b.vehicleId),
        customerId := u.customerId.GetOr(b.customerId),
        pickupLocation := u.pickupLocation.GetOr(b.pickupLocation),
        dropLocation := u.dropLocation.GetOr(b.dropLocation),
        startDate := u.startDate.GetOr(b.startDate),
        endDate := u.endDate.GetOr(b.endDate),
        totalAmount := total,
        advanceReceived := advance,
        balance := balance,
        status := u.status.GetOr(b.status),
        statusHistory := history,
        expenses := u.expenses.GetOr(b.expenses),
        payments := u.payments.GetOr(b.payments),
        dutySlips := u.dutySlips.GetOr(b.dutySlips),
        billed := u.billed.GetOr(b.billed),
        finalPaid := u.finalPaid.GetOr(b.finalPaid)))
  }

  /** An update that writes neither the balance nor the status log directly
      keeps a consistent balance consistent and the log in step with the
      status. */
  lemma UpdateBookingPreservesInvariants(b: Booking, u: BookingPatch, now: Timestamp)
    requires BalanceConsistent(b) && HistoryConsistent(b)
    requires u.balance.None? && u.statusHistory.None?
    ensures UpdateBooking(b, u, now).Success?
    ensures BalanceConsistent(UpdateBooking(b, u, now).value) && HistoryConsistent(UpdateBooking(b, u, now).value)
  {
  }

  /** A caller that sends an empty status log, and no status, leaves a
      booking whose log no longer records its status. */
  lemma ClientLogBreaksHistory(b: Booking, now: Timestamp)
    ensures UpdateBooking(b, NoChanges.(statusHistory := Some([])), now).Success?
    ensures !HistoryConsistent(UpdateBooking(b, NoChanges.(statusHistory := Some([])), now).value)
  {
  }

  /** A caller that sends a balance, and neither amount, has it written as
      sent, whatever the amounts say. */
  lemma ClientBalanceBreaksBalance(b: Booking, x: Amount, now: Timestamp)
    requires x != b.totalAmount - b.advanceReceived
    ensures UpdateBooking(b, NoChanges.(balance := Some(x)), now).Success?
    ensures !BalanceConsistent(UpdateBooking(b, NoChanges.(balance := Some(x)), now).value)
  {
  }

  /** Sending one side of the balance alone gives the same result as
      sending it together with the stored value of the other side. */
  lemma PartialUpdateUsesStoredSide(b: Booking, total: Amount, now: Timestamp)
    ensures UpdateBooking(b, NoChanges.(totalAmount := Some(total)), now).value.balance
         == UpdateBooking(b, NoChanges.(totalAmount := Some(total), advanceReceived := Some(b.advanceReceived)), now).value.balance
         == total - b.advanceReceived
  {
  }

  /** The collection after a delete, and the booking removed. */
  datatype Deleted = Deleted(store: seq<Booking>, removed: Option<Booking>)

  /** `deleteBooking`: removes the booking with that id (the first, should
      there be several) and hands it back; nothing when there is none. */
  function DeleteBooking(store: seq<Booking>, id: Id): (r: Deleted)
    ensures r.removed.None? <==> forall b :: b in store ==> b.id != id
    ensures r.removed.None? ==> r.store == store
    ensures r.removed.Some? ==> (r.removed.value in store && r.removed.value.id == id
      && |r.store| == |store| - 1 && multiset(r.store) + multiset{r.removed.value} == multiset(store))
  {
    match Lists.FirstIndex(store, id, (b: Booking) => b.id)
    case None =>
      assert forall b :: b in store ==> b.id != id;
      Deleted(store, None)
    case Some(i) =>
      assert store == store[..i] + [store[i]] + store[i + 1..];
      Deleted(store[..i] + store[i + 1..], Some(store[i]))
  }

  /** Ids are unique in the collection. */
  predicate UniqueIds(store: seq<Booking>) {
    forall i, j :: 0 <= i < j < |store| ==> store[i].id != store[j].id
  }

  /** Once deleted, a booking cannot be read back by anyone. */
  lemma DeletedNotFound(store: seq<Booking>, id: Id, user: Option<AuthUser>)
    requires UniqueIds(store)
    ensures GetBookingById(DeleteBooking(store, id).store, id, user).None?
  {
    var r := DeleteBooking(store, id);
    match Lists.FirstIndex(store, id, (b: Booking) => b.id)
    case None =>
    case Some(i) =>
      assert r.store == store[..i] + store[i + 1..];
      forall b | b in r.store ensures b.id != id {
        var k :| 0 <= k < |r.store| && r.store[k] == b;
        if k < i {
          assert b == store[k];
        } else {
          assert b == store[k + 1];
        }
      }
  }

  /** How a caller's role restricts what it may see. */
  datatype Scope = Unrestricted | DriverScope(driverId: Id) | CustomerScope(customerId: Id)

  /** The caller's scope; `None` for a driver or customer whose account is
      not linked to a driver or customer record. The service tests the link
      for truthiness, so an empty id counts as no link. */
  function ScopeOf(user: Option<AuthUser>): (r: Option<Scope>)
    ensures r.None? <==> user.Some? && ((user.value.role == Driver && !Picked(user.value.driverId))
                                    || (user.value.role == Customer && !Picked(user.value.customerId)))
    ensures user.Some? && user.value.role == Driver && r.Some? ==>
      Picked(user.value.driverId) && r.value == DriverScope(user.value.driverId.value)
    ensures user.Some? && user.value.role == Customer && r.Some? ==>
      Picked(user.value.customerId) && r.value == CustomerScope(user.value.customerId.value)
    ensures (user.None? || user.value.role !in {Driver, Customer}) ==> r == Some(Unrestricted)
  {
    if user.None? then Some(Unrestricted)
    else match user.value.role
      case Driver => if !Picked(user.value.driverId) then None else Some(DriverScope(user.value.driverId.value))
      case Customer => if !Picked(user.value.customerId) then None else Some(CustomerScope(user.value.customerId.value))
      case _ => Some(Unrestricted)
  }

  predicate InScope(scope: Scope, b: Booking) {
    match scope
    case Unrestricted => true
    case DriverScope(d) => b.driverId == Some(d)
    case CustomerScope(c) => b.customerId == Some(c)
  }

  /** The request's list filters; `None` when the query string omits one. */
  datatype Filters = Filters(
    status: Option<Status>,
    source: Option<BookingSource>,
    startDate: Option<Timestamp>,
    endDate: Option<Timestamp>,
    driverId: Option<Id>)

  /** The database query `getBookings` builds. */
  datatype Query = Query(
    status: Option<Status>,
    source: Option<BookingSource>,
    startFrom: Option<Timestamp>,
    endUntil: Option<Timestamp>,
    driverId: Option<Id>,
    customerId: Option<Id>)

  predicate Matches(q: Query, b: Booking) {
    && (q.status.Some? ==> b.status == q.status.value)
    && (q.source.Some? ==> b.bookingSource == q.source.value)
    && (q.startFrom.Some? ==> b.startDate >= q.startFrom.value)
    && (q.endUntil.Some? ==> b.endDate <= q.endUntil.value)
    && (q.driverId.Some? ==> b.driverId == q.driverId)
    && (q.customerId.Some? ==> b.customerId == q.customerId)
  }

  /** The query for a list request, or `None` when the caller is an unlinked
      driver or customer. A driver's own record always replaces any
      requested driver; a customer is pinned to its own record. An empty
      requested driver is falsy and adds no driver filter. */
  function BuildQuery(f: Filters, user: Option<AuthUser>): (r: Option<Query>)
    ensures r.None? <==> ScopeOf(user).None?
    ensures r.Some? && user.Some? && user.value.role == Driver ==> r.value.driverId == user.value.driverId
    ensures r.Some? && user.Some? && user.value.role == Customer ==> r.value.customerId == user.value.customerId
    ensures r.Some? && ScopeOf(user) == Some(Unrestricted) && Picked(f.driverId) ==>
      r.value.driverId == f.driverId && r.value.customerId.None?
    ensures r.Some? && ScopeOf(user) == Some(Unrestricted) && !Picked(f.driverId) ==>
      r.value.driverId.None? && r.value.customerId.None?
    ensures r.Some? && user.Some? && user.value.role == Customer ==>
      r.value.driverId == (if Picked(f.driverId) then f.driverId else None)
  {
    var asDriver := user.Some? && user.value.role == Driver;
    var requested := if Picked(f.driverId) && !asDriver then f.driverId else None;
    match ScopeOf(user)
    case None => None
    case Some(scope) =>
      var base := Query(f.status, f.source, f.startDate, f.endDate, requested, None);
      match scope
      case Unrestricted => Some(base)
      case DriverScope(d) => Some(base.(driverId := Some(d)))
      case CustomerScope(c) => Some(base.(customerId := Some(c)))
  }

  datatype Page = Page(bookings: seq<Booking>, total: nat)

  /** `getBookings` without sorting and paging: the stored bookings the
      query matches, and how many there are. */
  function GetBookings(store: seq<Booking>, f: Filters, user: Option<AuthUser>): (r: Page)
    ensures ScopeOf(user).None? ==> r == Page([], 0)
    ensures r.total == |r.bookings|
    ensures forall b :: b in r.bookings <==> b in store && BuildQuery(f, user).Some? && Matches(BuildQuery(f, user).value, b)
    ensures forall b :: multiset(r.bookings)[b]
                     == if BuildQuery(f, user).Some? && Matches(BuildQuery(f, user).value, b) then multiset(store)[b] else 0
    ensures user.Some? && user.value.role == Driver ==>
      forall b :: b in r.bookings ==> b.driverId.Some? && b.driverId == user.value.driverId
    ensures user.Some? && user.value.role == Customer ==>
      forall b :: b in r.bookings ==> b.customerId.Some? && b.customerId == user.value.customerId
  {
    match BuildQuery(f, user)
    case None => Page([], 0)
    case Some(q) =>
      Lists.FilterContents(store, (b: Booking) => Matches(q, b));
      var found := Lists.Filter(store, (b: Booking) => Matches(q, b));
      Page(found, |found|)
  }

  /** A driver cannot widen or move its view by asking for another driver. */
  lemma DriverRequestIgnored(store: seq<Booking>, f: Filters, user: AuthUser, other: Option<Id>)
    requires user.role == Driver
    ensures GetBookings(store, f, Some(user)) == GetBookings(store, f.(driverId := other), Some(user))
  {
  }

  /** `?driverId=` with an empty value is falsy and filters nothing: the
      result is the one for a request without a driver. */
  lemma EmptyDriverRequestIgnored(store: seq<Booking>, f: Filters, user: Option<AuthUser>)
    ensures GetBookings(store, f.(driverId := Some([])), user) == GetBookings(store, f.(driverId := None), user)
  {
  }

  /** `getBookingById`: the first stored booking with that id that the caller
      may see; `None` for an unlinked driver or customer. */
  function GetBookingById(store: seq<Booking>, id: Id, user: Option<AuthUser>): (r: Option<Booking>)
    ensures ScopeOf(user).None? ==> r.None?
    ensures r.Some? ==> r.value in store && r.value.id == id && InScope(ScopeOf(user).value, r.value)
    ensures r.None? && ScopeOf(user).Some? ==>
      forall b :: b in store && b.id == id ==> !InScope(ScopeOf(user).value, b)
  {
    match ScopeOf(user)
    case None => None
    case Some(scope) => Lists.Find(store, true, (b: Booking) => b.id == id && InScope(scope, b))
  }

  /** `updateStatus`: sets the status and logs it, unless the caller is an
      unlinked driver or customer or the booking lies outside its scope. */
  function UpdateStatus(b: Booking, s: Status, changedBy: string, user: Option<AuthUser>, now: Timestamp): (r: Option<Booking>)
    ensures ScopeOf(user).None? ==> r.None?
    ensures ScopeOf(user).Some? ==> (r.Some? <==> InScope(ScopeOf(user).value, b))
    ensures r.Some? ==> r.value.status == s && r.value.statusHistory == Appended(b.statusHistory, s, now, changedBy)
    ensures r.Some? ==> HistoryConsistent(r.value)
    ensures r.Some? ==> r.value.(status := b.status, statusHistory := b.statusHistory) == b
  {
    match ScopeOf(user)
    case None => None
    case Some(scope) =>
      if InScope(scope, b) then Some(b.(status := s, statusHistory := Appended(b.statusHistory, s, now, changedBy)))
      else None
  }

  // ---- Expenses ----

  /** The expense fields an update may carry. */
  datatype ExpensePatch = ExpensePatch(kind: Option<string>, amount: Option<Amount>, description: Option<string>, receipt: Option<string>)

  function PatchExpense(e: Expense, p: ExpensePatch): (r: Expense)
    ensures r.id == e.id
    ensures r.kind == p.kind.GetOr(e.kind) && r.amount == p.amount.GetOr(e.amount)
    ensures r.description == p.description.GetOr(e.description) && r.receipt == p.receipt.GetOr(e.receipt)
  {
    Expense(e.id, p.kind.GetOr(e.kind), p.amount.GetOr(e.amount), p.description.GetOr(e.description), p.receipt.GetOr(e.receipt))
  }

  /** `addExpense`: appended after the existing expenses; nothing else changes. */
  function AddExpense(b: Booking, e: Expense): (r: Booking)
    ensures |r.expenses| == |b.expenses| + 1 && r.expenses[..|b.expenses|] == b.expenses
    ensures r.expenses[|b.expenses|] == e
    ensures r.(expenses := b.expenses) == b
  {
    b.(expenses := b.expenses + [e])
  }

  /** `updateExpense`: the first expense with that id gets the supplied
      fields; `None` when the booking has no such expense. */
  function UpdateExpense(b: Booking, expenseId: Id, p: ExpensePatch): (r: Option<Booking>)
    ensures r.None? <==> forall i :: 0 <= i < |b.expenses| ==> b.expenses[i].id != expenseId
    ensures r.Some? ==> r.value.(expenses := b.expenses) == b && |r.value.expenses| == |b.expenses|
    ensures r.Some? ==> exists i :: (0 <= i < |b.expenses| && b.expenses[i].id == expenseId
      && r.value.expenses[i] == PatchExpense(b.expenses[i], p)
      && forall j :: 0 <= j < |b.expenses| && j != i ==> r.value.expenses[j] == b.expenses[j])
  {
    match Lists.UpdateFirst(b.expenses, expenseId, (e: Expense) => e.id, (e: Expense) => PatchExpense(e, p))
    case None => None
    case Some(es) => Some(b.(expenses := es))
  }

  /** `deleteExpense`: every expense with that id is pulled; the rest stay. */
  function DeleteExpense(b: Booking, expenseId: Id): (r: Booking)
    ensures forall e :: e in r.expenses <==> e in b.expenses && e.id != expenseId
    ensures forall e: Expense :: e.id != expenseId ==> multiset(r.expenses)[e] == multiset(b.expenses)[e]
    ensures r.(expenses := b.expenses) == b
  {
    b.(expenses := Lists.RemoveKey(b.expenses, expenseId, (e: Expense) => e.id))
  }

  /** Deleting a just-added expense whose id was new restores the booking. */
  lemma DeleteUndoesAddExpense(b: Booking, e: Expense)
    requires forall i :: 0 <= i < |b.expenses| ==> b.expenses[i].id != e.id
    ensures DeleteExpense(AddExpense(b, e), e.id) == b
  {
    var key := (x: Expense) => x.id;
    Lists.RemoveKeyAppend(b.expenses, [e], e.id, key);
    Lists.RemoveKeyAbsent(b.expenses, e.id, key);
    Lists.RemoveKeyOwn(e, key);
  }

  // ---- Payments ----

  datatype PaymentPatch = PaymentPatch(amount: Option<Amount>, comments: Option<string>, collectedBy: Option<string>, paidOn: Option<Timestamp>)

  function PatchPayment(q: Payment, p: PaymentPatch): (r: Payment)
    ensures r.id == q.id
    ensures r.amount == p.amount.GetOr(q.amount) && r.comments == p.comments.GetOr(q.comments)
    ensures r.collectedBy == p.collectedBy.GetOr(q.collectedBy) && r.paidOn == p.paidOn.GetOr(q.paidOn)
  {
    Payment(q.id, p.amount.GetOr(q.amount), p.comments.GetOr(q.comments), p.collectedBy.GetOr(q.collectedBy), p.paidOn.GetOr(q.paidOn))
  }

  /** `addPayment`: appended after the existing payments. */
  function AddPayment(b: Booking, q: Payment): (r: Booking)
    ensures |r.payments| == |b.payments| + 1 && r.payments[..|b.payments|] == b.payments
    ensures r.payments[|b.payments|] == q
    ensures r.(payments := b.payments) == b
  {
    b.(payments := b.payments + [q])
  }

  /** `updatePayment`: positional update of the first payment with that id. */
  function UpdatePayment(b: Booking, paymentId: Id, p: PaymentPatch): (r: Option<Booking>)
    ensures r.None? <==> forall i :: 0 <= i < |b.payments| ==> b.payments[i].id != paymentId
    ensures r.Some? ==> r.value.(payments := b.payments) == b && |r.value.payments| == |b.payments|
    ensures r.Some? ==> exists i :: (0 <= i < |b.payments| && b.payments[i].id == paymentId
      && r.value.payments[i] == PatchPayment(b.payments[i], p)
      && forall j :: 0 <= j < |b.payments| && j != i ==> r.value.payments[j] == b.payments[j])
  {
    match Lists.UpdateFirst(b.payments, paymentId, (q: Payment) => q.id, (q: Payment) => PatchPayment(q, p))
    case None => None
    case Some(ps) => Some(b.(payments := ps))
  }

  /** `deletePayment`. */
  function DeletePayment(b: Booking, paymentId: Id): (r: Booking)
    ensures forall q :: q in r.payments <==> q in b.payments && q.id != paymentId
    ensures forall q: Payment :: q.id != paymentId ==> multiset(r.payments)[q] == multiset(b.payments)[q]
    ensures r.(payments := b.payments) == b
  {
    b.(payments := Lists.RemoveKey(b.payments, paymentId, (q: Payment) => q.id))
  }

  /** Deleting a just-added payment whose id was new restores the booking. */
  lemma DeleteUndoesAddPayment(b: Booking, q: Payment)
    requires forall i :: 0 <= i < |b.payments| ==> b.payments[i].id != q.id
    ensures DeletePayment(AddPayment(b, q), q.id) == b
  {
    var key := (x: Payment) => x.id;
    Lists.RemoveKeyAppend(b.payments, [q], q.id, key);
    Lists.RemoveKeyAbsent(b.payments, q.id, key);
    Lists.RemoveKeyOwn(q, key);
  }

  /** `listPayments`: the booking's payments, or none when it does not exist. */
  function ListPayments(store: seq<Booking>, bookingId: Id): (r: seq<Payment>)
    ensures (forall b :: b in store ==> b.id != bookingId) ==> r == []
    ensures forall i :: (0 <= i < |store| && store[i].id == bookingId
      && (forall j :: 0 <= j < i ==> store[j].id != bookingId)) ==> r == store[i].payments
  {
    match Lists.Find(store, bookingId, (b: Booking) => b.id)
    case None => []
    case Some(b) => b.payments
  }

  /** With unique ids, listing a stored booking's payments gives exactly
      what that booking holds, so a payment just added is listed last. */
  lemma ListPaymentsOfStored(store: seq<Booking>, i: nat)
    requires UniqueIds(store) && i < |store|
    ensures ListPayments(store, store[i].id) == store[i].payments
  {
  }

  lemma ListAfterAddPayment(store: seq<Booking>, i: nat, p: Payment)
    requires UniqueIds(store) && i < |store|
    ensures ListPayments(store[i := AddPayment(store[i], p)], store[i].id) == store[i].payments + [p]
  {
    var s' := store[i := AddPayment(store[i], p)];
    assert UniqueIds(s');
    ListPaymentsOfStored(s', i);
  }

  // ---- Duty slips ----

  /** An uploaded file and the id the store gives its sub-document. */
  datatype UploadedFile = UploadedFile(id: Id, path: string)

  function SlipsOf(files: seq<UploadedFile>, uploadedBy: string, now: Timestamp): (r: seq<DutySlip>)
    ensures |r| == |files|
    ensures forall i :: 0 <= i < |files| ==> r[i] == DutySlip(files[i].id, files[i].path, uploadedBy, now)
  {
    if |files| == 0 then [] else [DutySlip(files[0].id, files[0].path, uploadedBy, now)] + SlipsOf(files[1..], uploadedBy, now)
  }

  /** `uploadDutySlips`: one slip per file, appended in upload order. */
  function UploadDutySlips(b: Booking, files: seq<UploadedFile>, uploadedBy: string, now: Timestamp): (r: Booking)
    ensures |r.dutySlips| == |b.dutySlips| + |files| && r.dutySlips[..|b.dutySlips|] == b.dutySlips
    ensures forall i :: 0 <= i < |files| ==> r.dutySlips[|b.dutySlips| + i].path == files[i].path
    ensures r.(dutySlips := b.dutySlips) == b
  {
    b.(dutySlips := b.dutySlips + SlipsOf(files, uploadedBy, now))
  }

  /** `removeDutySlip`: pulls every slip stored under that path. */
  function RemoveDutySlip(b: Booking, path: string): (r: Booking)
    ensures forall d :: d in r.dutySlips <==> d in b.dutySlips && d.path != path
    ensures forall d: DutySlip :: d.path != path ==> multiset(r.dutySlips)[d] == multiset(b.dutySlips)[d]
    ensures r.(dutySlips := b.dutySlips) == b
  {
    b.(dutySlips := Lists.RemoveKey(b.dutySlips, path, (d: DutySlip) => d.path))
  }

  /** Removing the path of a slip just uploaded, when no stored slip had
      that path, restores the booking. */
  lemma RemoveUndoesUploadSlip(b: Booking, f: UploadedFile, uploadedBy: string, now: Timestamp)
    requires forall i :: 0 <= i < |b.dutySlips| ==> b.dutySlips[i].path != f.path
    ensures RemoveDutySlip(UploadDutySlips(b, [f], uploadedBy, now), f.path) == b
  {
    var key := (d: DutySlip) => d.path;
    var slips := SlipsOf([f], uploadedBy, now);
    assert slips == [DutySlip(f.id, f.path, uploadedBy, now)];
    Lists.RemoveKeyAppend(b.dutySlips, slips, f.path, key);
    Lists.RemoveKeyAbsent(b.dutySlips, f.path, key);
    Lists.RemoveKeyOwn(slips[0], key);
  }
}

=== FILE: company_report.dfy ===
/** The company report: one row per booking of the window (and of the
    selected company), with what the driver was advanced, spent and
    received, and a payable amount clamped at zero. */
module CompanyReport {
  import opened Wrappers
  import opened Ledger
  import Lists

  /** The part of the expenses that the on-duty payments leave uncovered. */
  function Uncovered(expenses: Amount, paid: Amount): (r: Amount)
    ensures r >= 0.0
    ensures paid + r >= expenses
    ensures r > 0.0 ==> paid + r == expenses
  {
    if paid < expenses then expenses - paid else 0.0
  }

  /** `amountPayableBase`. With oil payments it is the oil plus the
      uncovered expenses. Without oil it is the uncovered expenses as long
      as the payments do not exceed them; once they do, it is the whole of
      the expenses again. */
  function PayableBase(oil: Amount, paid: Amount, expenses: Amount): (r: Amount)
    ensures oil != 0.0 && expenses >= 0.0 ==> r == oil + Uncovered(expenses, paid)
    ensures oil == 0.0 && 0.0 <= paid <= expenses ==> r == Uncovered(expenses, paid)
    ensures oil == 0.0 && paid > expenses ==> r == expenses
  {
    if oil == 0.0 then
      if paid == expenses then 0.0
      else if paid < expenses && paid > 0.0 then expenses - paid
      else expenses
    else
      if paid == 0.0 then expenses + oil
      else if paid < expenses then oil + (expenses - paid)
      else oil
  }

  /** For non-negative amounts the rule is "oil plus what the payments leave
      uncovered" in every case but one: no oil and payments exceeding the
      expenses, where the whole expenses are payable again. */
  lemma PayableBaseIsRemainderExceptOverpaid(oil: Amount, paid: Amount, expenses: Amount)
    requires paid >= 0.0 && expenses >= 0.0
    ensures PayableBase(oil, paid, expenses) == oil + Uncovered(expenses, paid)
        <==> !(oil == 0.0 && paid > expenses && expenses != 0.0)
  {
  }

  /** `amountPayable`: with a settlement, what the settlement leaves over the
      base; otherwise the base; never below zero. */
  function AmountPayable(finalPaid: Option<Amount>, base: Amount): (r: Amount)
    ensures r >= 0.0
    ensures var target := if Truthy(finalPaid) then finalPaid.value - base else base;
            r >= target && (r == target || r == 0.0)
  {
    var target := if Truthy(finalPaid) then finalPaid.value - base else base;
    if target > 0.0 then target else 0.0
  }

  datatype Row = Row(
    id: Id,
    sNo: nat,
    bookingAmount: Amount,
    advanceToDriver: Amount,
    driverExpenses: Amount,
    driverReceived: Amount,
    amountPayable: Amount)

  /** The driver payments fetched for the booking's driver; none when the
      booking has no driver (an empty id is falsy) or nothing was fetched
      for it. */
  function FinanceFor(b: Booking, paymentsByDriver: map<Id, seq<DriverPayment>>): (r: seq<DriverPayment>)
    ensures !Picked(b.driverId) ==> r == []
    ensures Picked(b.driverId) && b.driverId.value in paymentsByDriver ==> r == paymentsByDriver[b.driverId.value]
    ensures Picked(b.driverId) && b.driverId.value !in paymentsByDriver ==> r == []
  {
    if Picked(b.driverId) && b.driverId.value in paymentsByDriver then paymentsByDriver[b.driverId.value] else []
  }

  /** One report row. */
  function MakeRow(b: Booking, finance: seq<DriverPayment>, sNo: nat): (r: Row)
    ensures r.id == b.id && r.sNo == sNo && r.bookingAmount == b.totalAmount
    ensures r.advanceToDriver == b.advanceReceived + PaymentTotal(b)
    ensures r.driverExpenses == ExpenseTotal(b) + OilTotal(finance, b.id)
    ensures r.driverReceived == r.advanceToDriver + OrZero(b.finalPaid)
    ensures r.amountPayable >= 0.0
    ensures r.amountPayable == AmountPayable(b.finalPaid, PayableBase(OilTotal(finance, b.id), PaymentTotal(b), ExpenseTotal(b)))
  {
    var expenses := ExpenseTotal(b);
    var paid := PaymentTotal(b);
    var advanceToDriver := b.advanceReceived + paid;
    var oil := OilTotal(finance, b.id);
    var received := if Truthy(b.finalPaid) then b.finalPaid.value + advanceToDriver else advanceToDriver;
    Row(b.id, sNo, b.totalAmount, advanceToDriver, expenses + oil, received,
        AmountPayable(b.finalPaid, PayableBase(oil, paid, expenses)))
  }

  /** The booking belongs in the report: it starts in the window and, when
      a company is chosen (an empty choice means none), belongs to it. */
  predicate Selected(b: Booking, from: Timestamp, to: Timestamp, companyId: Option<Id>) {
    StartsWithin(b, from, to) && (Picked(companyId) ==> b.companyId == companyId)
  }

  /** Rows for `kept`, numbered from `start`. */
  function RowsFrom(kept: seq<Booking>, paymentsByDriver: map<Id, seq<DriverPayment>>, start: nat): (r: seq<Row>)
    ensures |r| == |kept|
    ensures forall i :: 0 <= i < |kept| ==> r[i] == MakeRow(kept[i], FinanceFor(kept[i], paymentsByDriver), start + i)
  {
    if |kept| == 0 then []
    else [MakeRow(kept[0], FinanceFor(kept[0], paymentsByDriver), start)] + RowsFrom(kept[1..], paymentsByDriver, start + 1)
  }

  /** The report's bookings, in stored order. */
  function Kept(bookings: seq<Booking>, from: Timestamp, to: Timestamp, companyId: Option<Id>): seq<Booking> {
    Lists.Filter(bookings, (b: Booking) => Selected(b, from, to, companyId))
  }

  /** `generateRows`: the selected bookings in their stored order, numbered
      1..n. */
  function GenerateRows(bookings: seq<Booking>, from: Timestamp, to: Timestamp, companyId: Option<Id>,
                        paymentsByDriver: map<Id, seq<DriverPayment>>): (r: seq<Row>)
    ensures |r| == |Kept(bookings, from, to, companyId)|
    ensures forall i :: 0 <= i < |r| ==>
      r[i] == MakeRow(Kept(bookings, from, to, companyId)[i], FinanceFor(Kept(bookings, from, to, companyId)[i], paymentsByDriver), i + 1)
    ensures forall i :: 0 <= i < |r| ==> r[i].sNo == i + 1
    ensures forall i :: 0 <= i < |r| ==>
      (exists b :: b in bookings && Selected(b, from, to, companyId)
         && r[i] == MakeRow(b, FinanceFor(b, paymentsByDriver), i + 1))
  {
    var kept := Kept(bookings, from, to, companyId);
    Lists.FilterContents(bookings, (b: Booking) => Selected(b, from, to, companyId));
    assert forall i :: 0 <= i < |kept| ==> kept[i] in kept;
    RowsFrom(kept, paymentsByDriver, 1)
  }

  /** Payments that exactly cover the expenses, no oil and no settlement leave
      nothing payable. */
  lemma CoveredExpensesPayNothing(b: Booking, finance: seq<DriverPayment>)
    requires PaymentTotal(b) == ExpenseTotal(b) && OilTotal(finance, b.id) == 0.0 && !Truthy(b.finalPaid)
    ensures MakeRow(b, finance, 1).amountPayable == 0.0
  {
  }
}

=== FILE: create_booking.dfy ===
/** The create-booking screen: the city list it keeps (cleaned, de-duplicated
    and sorted), the add-city dialog, the form validation, and the request the
    submit builds. */
module CreateBooking {
  import opened Wrappers
  import opened Ledger
  import Text
  import BookingService

  /** A city name as `sanitizeCities` keeps it: trimmed, dropped when empty
      or the "select city" placeholder (in any ASCII case), then with every
      run of white space turned into one space. */
  function CleanCity(c: string): (r: Option<string>)
    ensures r.None? <==> Text.Trim(c) == [] || Text.AsciiLower(Text.Trim(c)) == "select city"
    ensures r.Some? ==> WellFormedCity(r.value)
  {
    var t := Text.Trim(c);
    if t == [] || Text.AsciiLower(t) == "select city" then None
    else
      Text.CollapseLast(t);
      Some(Text.Collapse(t))
  }

  /** A kept name holds exactly the input's non-white-space characters, in
      order: cleaning only removes and merges white space. */
  lemma CleanCityLetters(c: string)
    requires CleanCity(c).Some?
    ensures Text.Letters(CleanCity(c).value) == Text.Letters(c)
  {
    Text.CollapseLetters(Text.Trim(c));
    Text.TrimLetters(c);
  }

  /** Non-empty, no white space at either end, single spaces inside. */
  predicate WellFormedCity(x: string) {
    x != [] && !Text.IsSpace(x[0]) && !Text.IsSpace(x[|x| - 1]) && Text.SingleSpaced(x)
  }

  /** The cleaned names, in input order, duplicates kept. */
  function CleanAll(raw: seq<string>): (r: seq<string>)
    ensures forall y :: y in r <==> exists x :: x in raw && CleanCity(x) == Some(y)
  {
    if |raw| == 0 then []
    else
      var rest := CleanAll(raw[1..]);
      assert forall x :: x in raw <==> x == raw[0] || x in raw[1..];
      match CleanCity(raw[0])
      case Some(x) => [x] + rest
      case None => rest
  }

  /** Neighbours are in increasing order, so the list is strictly sorted and
      holds no duplicates. */
  predicate Sorted(s: seq<string>) {
    forall i :: 0 <= i < |s| - 1 ==> Text.Less(s[i], s[i + 1])
  }

  /** A sorted list is ordered between any two positions. */
  lemma {:induction false} SortedPairwise(s: seq<string>, i: int, j: int)
    requires Sorted(s) && 0 <= i < j < |s|
    ensures Text.Less(s[i], s[j])
    decreases j - i
  {
    if j > i + 1 {
      SortedPairwise(s, i + 1, j);
      Text.LessTransitive(s[i], s[i + 1], s[j]);
    }
  }

  /** Adds `x` to a sorted list unless it is there already. */
  function Insert(s: seq<string>, x: string): (r: seq<string>)
    requires Sorted(s)
    ensures Sorted(r)
    ensures forall y :: y in r <==> y in s || y == x
    ensures r != [] && (r[0] == x || (s != [] && r[0] == s[0]))
  {
    if |s| == 0 then [x]
    else if s[0] == x then s
    else if Text.Less(x, s[0]) then [x] + s
    else
      Text.LessTotal(x, s[0]);
      assert Sorted(s[1..]);
      [s[0]] + Insert(s[1..], x)
  }

  /** `Array.from(new Set(xs)).sort(...)`: the distinct names, in order. */
  function SortDistinct(xs: seq<string>): (r: seq<string>)
    ensures Sorted(r)
    ensures forall y :: y in r <==> y in xs
  {
    if |xs| == 0 then [] else Insert(SortDistinct(xs[1..]), xs[0])
  }

  /** `sanitizeCities`: the cleaned names, each once, sorted. */
  function SanitizeCities(raw: seq<string>): (r: seq<string>)
    ensures Sorted(r)
    ensures forall y :: y in r <==> exists x :: x in raw && CleanCity(x) == Some(y)
    ensures forall y :: y in r ==> WellFormedCity(y)
  {
    SortDistinct(CleanAll(raw))
  }

  /** The strict order means there is exactly one sorted arrangement of a set
      of names: sanitising depends only on which names are cleaned, not on
      their order or repetition. */
  lemma {:induction false} SortedUnique(a: seq<string>, b: seq<string>)
    requires Sorted(a) && Sorted(b)
    requires forall y :: y in a <==> y in b
    ensures a == b
    decreases |a|
  {
    assert |a| > 0 ==> a[0] in b;
    assert |b| > 0 ==> b[0] in a;
    if |a| > 0 && |b| > 0 {
      assert a[0] == b[0] by {
        if a[0] != b[0] {
          assert a[0] in b && b[0] in a;
          var i :| 0 <= i < |a| && a[i] == b[0];
          var j :| 0 <= j < |b| && b[j] == a[0];
          SortedPairwise(a, 0, i);
          SortedPairwise(b, 0, j);
          Text.LessAsymmetric(a[0], b[0]);
        }
      }
      forall y ensures y in a[1..] <==> y in b[1..] {
        if y in a[1..] {
          var i :| 1 <= i < |a| && a[i] == y;
          SortedPairwise(a, 0, i);
          Text.LessIrreflexive(a[0]);
          assert y in b && y != b[0];
        }
        if y in b[1..] {
          var j :| 1 <= j < |b| && b[j] == y;
          SortedPairwise(b, 0, j);
          Text.LessIrreflexive(b[0]);
          assert y in a && y != a[0];
        }
      }
      SortedUnique(a[1..], b[1..]);
      assert a == [a[0]] + a[1..] && b == [b[0]] + b[1..];
    }
  }

  /** Two words joined by a run of white space clean to the words joined by
      one space, unless they spell the placeholder. */
  lemma CleanJoined(first: string, gap: string, second: string)
    requires first != [] && second != [] && gap != []
    requires forall k :: 0 <= k < |first| ==> !Text.IsSpace(first[k])
    requires forall k :: 0 <= k < |second| ==> !Text.IsSpace(second[k])
    requires forall k :: 0 <= k < |gap| ==> Text.IsSpace(gap[k])
    requires |first + gap + second| != |"select city"|
    ensures CleanCity(first + gap + second) == Some(first + " " + second)
  {
    var s := first + gap + second;
    assert s[0] == first[0] && s[|s| - 1] == second[|second| - 1];
    Text.TrimUnpadded(s);
    assert |Text.AsciiLower(s)| == |s|;
    Text.CollapseJoin(first, gap, second);
  }

  /** The placeholder in any ASCII case is dropped. */
  lemma PlaceholderDropped(c: string)
    requires c == "Select City"
    ensures CleanCity(c).None?
  {
    Text.TrimUnpadded(c);
    var lower := Text.AsciiLower(c);
    assert forall k :: 0 <= k < 11 ==> lower[k] == "select city"[k];
  }

  /** Sanitising a single name gives its cleaned form ... */
  lemma SanitizeOneKept(c: string, y: string)
    requires CleanCity(c) == Some(y)
    ensures SanitizeCities([c]) == [y]
  {
    assert [c][1..] == [];
    assert CleanAll([c]) == [y];
    assert [y][1..] == [];
    assert SortDistinct([y][1..]) == [];
    assert Insert([], y) == [y];
    assert SortDistinct([y]) == [y];
  }

  /** ... or nothing when the name is dropped. */
  lemma SanitizeOneDropped(c: string)
    requires CleanCity(c).None?
    ensures SanitizeCities([c]) == []
  {
    assert [c][1..] == [];
    assert CleanAll([c]) == [];
  }

  /** A name whose cleaned form is itself dropped survives one pass only. */
  lemma SanitizeTwice(c: string, y: string)
    requires CleanCity(c) == Some(y) && CleanCity(y).None?
    ensures SanitizeCities([c]) == [y]
    ensures SanitizeCities(SanitizeCities([c])) == []
  {
    SanitizeOneKept(c, y);
    SanitizeOneDropped(y);
  }

  /** The placeholder spelt with a run of white space cleans to the
      placeholder itself. */
  lemma SpacedPlaceholder(first: string, second: string, gap: string)
    requires first == "Select" && second == "City" && gap == "  "
    ensures CleanCity(first + gap + second) == Some(first + " " + second)
  {
    CleanJoined(first, gap, second);
  }

  /** The two words of the placeholder joined by one space are dropped. */
  lemma JoinedPlaceholder(first: string, second: string)
    requires first == "Select" && second == "City"
    ensures CleanCity(first + " " + second).None?
  {
    var single := first + " " + second;
    assert |single| == 11;
    assert forall k :: 0 <= k < 11 ==> single[k] == "Select City"[k];
    PlaceholderDropped(single);
  }

  /** Sanitising is not idempotent: a placeholder spelt with two spaces
      survives the first pass as "Select City", which the second pass drops. */
  lemma SanitizeNotIdempotent(first: string, second: string, gap: string)
    requires first == "Select" && second == "City" && gap == "  "
    ensures SanitizeCities([first + gap + second]) == [first + " " + second]
    ensures SanitizeCities(SanitizeCities([first + gap + second])) == []
  {
    SpacedPlaceholder(first, second, gap);
    JoinedPlaceholder(first, second);
    SanitizeTwice(first + gap + second, first + " " + second);
  }

  /** What a successful add leaves behind: the value put in the city field
      and the new city list. */
  datatype CityAdded = CityAdded(selected: string, cities: seq<string>)

  /** `onAdd` of the city dialog. An empty name and a name already listed
      are refused. Otherwise, when the server accepts it, the list becomes
      the sanitised server list (`listed`); when the request fails, the name
      is added to the saved list and that is sanitised. */
  function AddCity(name: string, cities: seq<string>, listed: Option<seq<string>>, saved: seq<string>)
    : (r: Result<CityAdded, string>)
    ensures Text.Trim(name) == [] <==> r == Failure("City name is required")
    ensures Text.Trim(name) != [] && Text.Trim(name) in cities <==> r == Failure("City already exists")
    ensures r.Success? ==> r.value.selected == Text.Trim(name) && Text.Trim(name) !in cities
    ensures r.Success? && listed.Some? ==> r.value.cities == SanitizeCities(listed.value)
    ensures r.Success? && listed.None? ==> r.value.cities == SanitizeCities(WithCity(saved, Text.Trim(name)))
  {
    var c := Text.Trim(name);
    if c == [] then Failure("City name is required")
    else if c in cities then Failure("City already exists")
    else
      match listed
      case Some(names) => Success(CityAdded(c, SanitizeCities(names)))
      case None => Success(CityAdded(c, SanitizeCities(WithCity(saved, c))))
  }

  /** The saved list with the name pushed when it is not already there. */
  function WithCity(saved: seq<string>, c: string): (r: seq<string>)
    ensures forall y :: y in r <==> y in saved || y == c
  {
    if c in saved then saved else saved + [c]
  }

  /** After a failed request the list holds the cleaned saved names and the
      cleaned new name, and nothing else. */
  lemma FallbackListContents(saved: seq<string>, c: string)
    ensures forall y :: y in SanitizeCities(WithCity(saved, c)) <==>
      (exists x :: x in saved && CleanCity(x) == Some(y)) || CleanCity(c) == Some(y)
  {
  }

  /** A city typed with two inner spaces is selected as typed, while the
      fallback list only holds its single-spaced form: the selection is not
      one of the list's options. */
  lemma AddedCityNotListed(first: string, second: string, gap: string)
    requires first == "New" && second == "Town" && gap == "  "
    ensures AddCity(first + gap + second, [], None, [])
         == Success(CityAdded(first + gap + second, [first + " " + second]))
  {
    var name := first + gap + second;
    assert name[0] == 'N' && name[|name| - 1] == 'n';
    Text.TrimUnpadded(name);
    CleanJoined(first, gap, second);
    assert WithCity([], name) == [name];
    SanitizeOneKept(name, first + " " + second);
  }

  datatype JourneyType = OutstationOneWay | Outstation | LocalOutstation | Local | Transfer

  /** The booking form as the user filled it in; optional selects are the
      empty string when nothing is chosen. */
  datatype BookingForm = BookingForm(
    customerName: string,
    customerPhone: string,
    bookingSource: BookingSource,
    companyId: string,
    pickupLocation: string,
    dropLocation: string,
    journeyType: JourneyType,
    startDate: string,
    endDate: string,
    vehicleId: string,
    driverId: string,
    tariffRate: Amount,
    totalAmount: Amount,
    advanceReceived: Amount)

  /** One-way and transfer trips hide the end date and copy the start date
      into it once one is entered. */
  function SyncEndDate(f: BookingForm): (r: BookingForm)
    ensures r.(endDate := f.endDate) == f
    ensures (f.journeyType == OutstationOneWay || f.journeyType == Transfer) && f.startDate != [] ==> r.endDate == r.startDate
    ensures !(f.journeyType == OutstationOneWay || f.journeyType == Transfer) || f.startDate == [] ==> r == f
  {
    if (f.journeyType == OutstationOneWay || f.journeyType == Transfer) && f.startDate != [] then f.(endDate := f.startDate)
    else f
  }

  /** The fields the form's schema can reject. */
  datatype FieldError =
    | NameMissing | PhoneTooShort | PickupMissing | DropMissing | StartMissing | EndMissing
    | NegativeTariff | NegativeTotal | NegativeAdvance

  /** The message the schema shows for each rejection. */
  function Message(e: FieldError): string {
    match e
    case NameMissing => "Customer name is required"
    case PhoneTooShort => "Valid phone number is required"
    case PickupMissing => "Pickup location is required"
    case DropMissing => "Drop location is required"
    case StartMissing => "Start date is required"
    case EndMissing => "End date is required"
    case NegativeTariff => "Tariff rate must be positive"
    case NegativeTotal => "Total amount must be positive"
    case NegativeAdvance => "Advance must be positive"
  }

  /** The rule behind each rejection holds of the form. */
  predicate Fails(f: BookingForm, e: FieldError) {
    match e
    case NameMissing => |f.customerName| < 1
    case PhoneTooShort => |f.customerPhone| < 10
    case PickupMissing => |f.pickupLocation| < 1
    case DropMissing => |f.dropLocation| < 1
    case StartMissing => |f.startDate| < 1
    case EndMissing => |f.endDate| < 1
    case NegativeTariff => f.tariffRate < 0.0
    case NegativeTotal => f.totalAmount < 0.0
    case NegativeAdvance => f.advanceReceived < 0.0
  }

  const AllFieldErrors: seq<FieldError> := [
    NameMissing, PhoneTooShort, PickupMissing, DropMissing, StartMissing, EndMissing,
    NegativeTariff, NegativeTotal, NegativeAdvance]

  /** The schema's verdict on the form: each field is rejected exactly when
      its rule fails. */
  function ValidationErrors(f: BookingForm): (r: set<FieldError>)
    ensures NameMissing in r <==> |f.customerName| < 1
    ensures PhoneTooShort in r <==> |f.customerPhone| < 10
    ensures PickupMissing in r <==> |f.pickupLocation| < 1
    ensures DropMissing in r <==> |f.dropLocation| < 1
    ensures StartMissing in r <==> |f.startDate| < 1
    ensures EndMissing in r <==> |f.endDate| < 1
    ensures NegativeTariff in r <==> f.tariffRate < 0.0
    ensures NegativeTotal in r <==> f.totalAmount < 0.0
    ensures NegativeAdvance in r <==> f.advanceReceived < 0.0
  {
    set e | e in AllFieldErrors && Fails(f, e)
  }

  /** A one-way form with a start date but no end date passes the end-date
      rule once the end date is synchronised. */
  lemma SyncedEndDateAccepted(f: BookingForm)
    requires f.journeyType == OutstationOneWay || f.journeyType == Transfer
    requires f.startDate != []
    ensures EndMissing !in ValidationErrors(SyncEndDate(f))
  {
  }

  /** `value || undefined` for a select. */
  function Chosen(s: string): (r: Option<Id>)
    ensures r.None? <==> s == []
    ensures r.Some? ==> r.value == s
  {
    if s == [] then None else Some(s)
  }

  /** The request `onSubmit` sends. */
  datatype BookingRequest = BookingRequest(
    form: BookingForm,
    companyId: Option<Id>,
    vehicleId: Option<Id>,
    driverId: Option<Id>,
    balance: Amount,
    status: Status,
    statusHistory: seq<StatusChange>,
    expenses: seq<Expense>,
    billed: bool,
    dutySlipSubmitted: bool,
    dutySlipSubmittedToCompany: bool)

  const DispatcherAuthor := "Dispatcher"

  /** `onSubmit`: individuals carry no company, empty selects are dropped,
      the balance is derived, and the booking starts `booked` with one log
      entry by the dispatcher. */
  function NormalizeForm(f: BookingForm, now: Timestamp): (r: BookingRequest)
    ensures f.bookingSource == Individual ==> r.companyId.None?
    ensures f.bookingSource != Individual ==> r.companyId == Chosen(f.companyId)
    ensures r.vehicleId == Chosen(f.vehicleId) && r.driverId == Chosen(f.driverId)
    ensures r.balance + f.advanceReceived == f.totalAmount
    ensures r.status == Booked && r.statusHistory == [StatusChange(Booked, now, DispatcherAuthor)]
    ensures r.expenses == [] && !r.billed && !r.dutySlipSubmitted && !r.dutySlipSubmittedToCompany
  {
    BookingRequest(
      f,
      if f.bookingSource == Individual then None else Chosen(f.companyId),
      Chosen(f.vehicleId),
      Chosen(f.driverId),
      f.totalAmount - f.advanceReceived,
      Booked,
      [StatusChange(Booked, now, DispatcherAuthor)],
      [],
      false,
      false,
      false)
  }

  /** The fields of the request `createBooking` keeps; `start` and `end` are
      the form's dates as timestamps. */
  function ToNewBooking(r: BookingRequest, id: Id, start: Timestamp, end: Timestamp): BookingService.NewBooking {
    BookingService.NewBooking(
      id, r.form.bookingSource, r.companyId, r.driverId, r.vehicleId, None,
      r.form.pickupLocation, r.form.dropLocation, start, end,
      r.form.totalAmount, r.form.advanceReceived, [], None)
  }

  /** The server agrees with the screen on the balance and the status but
      replaces the screen's log entry with its own, written by "System". */
  lemma ServerKeepsBalanceButNotLog(f: BookingForm, id: Id, start: Timestamp, end: Timestamp, now: Timestamp, later: Timestamp)
    ensures var req := NormalizeForm(f, now);
            var b := BookingService.CreateBooking(ToNewBooking(req, id, start, end), later);
            b.balance == req.balance && b.status == req.status
            && b.statusHistory[0].changedBy != req.statusHistory[0].changedBy
  {
    assert BookingService.SystemAuthor[0] != DispatcherAuthor[0];
  }
}

=== FILE: driver_report.dfy ===
/** The driver report: the trip-payment summary for one driver, the
    settlement ("pay to driver") it drives, the report rows, and the
    vehicles the driver used. Unlike the company report, the payable here is
    the advance plus the on-duty payments minus what the driver spent, and it
    is never clamped. */
module DriverReport {
  import opened Wrappers
  import opened Ledger
  import Lists
  import CompanyReport

  /** What the driver still owes (positive) or is owed (negative) for a trip:
      the money handed over minus the money spent. */
  function TripBalance(advance: Amount, onDuty: Amount, oil: Amount, expenses: Amount): Amount {
    (advance + onDuty) - (oil + expenses)
  }

  /** `displayAmountPayable`: once a settlement is recorded, what the
      settlement leaves over the trip balance; before, the trip balance. */
  function DisplayPayable(finalPaid: Option<Amount>, balance: Amount): (r: Amount)
    ensures !Truthy(finalPaid) ==> r == balance
    ensures Truthy(finalPaid) ==> r + balance == finalPaid.value
  {
    if Truthy(finalPaid) then finalPaid.value - balance else balance
  }

  datatype BookingPayable = BookingPayable(booking: Booking, totalPaymentAmount: Amount, amountPayable: Amount)

  /** One entry of `bookingPayables`. */
  function PayableOf(b: Booking, payments: seq<DriverPayment>): (r: BookingPayable)
    ensures r.booking == b
    ensures r.totalPaymentAmount == b.advanceReceived + PaymentTotal(b) + OrZero(b.finalPaid)
    ensures !Truthy(b.finalPaid) ==>
      r.amountPayable + OilTotal(payments, b.id) + ExpenseTotal(b) == b.advanceReceived + PaymentTotal(b)
    ensures Truthy(b.finalPaid) ==>
      r.amountPayable + b.advanceReceived + PaymentTotal(b) == b.finalPaid.value + OilTotal(payments, b.id) + ExpenseTotal(b)
  {
    var paid := PaymentTotal(b);
    var balance := TripBalance(b.advanceReceived, paid, OilTotal(payments, b.id), ExpenseTotal(b));
    BookingPayable(b, b.advanceReceived + paid + OrZero(b.finalPaid), DisplayPayable(b.finalPaid, balance))
  }

  /** The booking is one of the selected driver's trips in the window; with
      no driver selected there are no trips. */
  predicate OnTrip(b: Booking, from: Timestamp, to: Timestamp, driverId: Option<Id>) {
    StartsWithin(b, from, to) && Picked(driverId) && b.driverId == driverId
  }

  /** The booking belongs in the report rows; with no driver selected every
      booking of the window does. */
  predicate InReport(b: Booking, from: Timestamp, to: Timestamp, driverId: Option<Id>) {
    StartsWithin(b, from, to) && (Picked(driverId) ==> b.driverId == driverId)
  }

  function PayablesOf(bs: seq<Booking>, payments: seq<DriverPayment>): (r: seq<BookingPayable>)
    ensures |r| == |bs|
    ensures forall i :: 0 <= i < |bs| ==> r[i] == PayableOf(bs[i], payments)
  {
    if |bs| == 0 then [] else [PayableOf(bs[0], payments)] + PayablesOf(bs[1..], payments)
  }

  /** The selected driver's trips in the window, in stored order. */
  function Trips(bookings: seq<Booking>, from: Timestamp, to: Timestamp, driverId: Option<Id>): seq<Booking> {
    Lists.Filter(bookings, (b: Booking) => OnTrip(b, from, to, driverId))
  }

  /** `bookingPayables`: one entry per trip of the selected driver in the
      window, in stored order. */
  function BookingPayables(bookings: seq<Booking>, from: Timestamp, to: Timestamp, driverId: Option<Id>,
                           payments: seq<DriverPayment>): (r: seq<BookingPayable>)
    ensures |r| == |Trips(bookings, from, to, driverId)|
    ensures forall i :: 0 <= i < |r| ==> r[i] == PayableOf(Trips(bookings, from, to, driverId)[i], payments)
    ensures !Picked(driverId) ==> r == []
    ensures forall bp :: bp in r ==> bp.booking in bookings && OnTrip(bp.booking, from, to, driverId)
    ensures forall b :: b in bookings && OnTrip(b, from, to, driverId) ==> PayableOf(b, payments) in r
    ensures forall i :: 0 <= i < |r| ==> r[i] == PayableOf(r[i].booking, payments)
  {
    var keep := (b: Booking) => OnTrip(b, from, to, driverId);
    var trips := Trips(bookings, from, to, driverId);
    Lists.FilterContents(bookings, keep);
    var r := PayablesOf(trips, payments);
    assert forall b :: b in trips ==> PayableOf(b, payments) in r by {
      forall b | b in trips ensures PayableOf(b, payments) in r {
        var i :| 0 <= i < |trips| && trips[i] == b;
        assert r[i] == PayableOf(b, payments);
      }
    }
    assert forall bp :: bp in r ==> bp.booking in trips by {
      forall bp | bp in r ensures bp.booking in trips {
        var i :| 0 <= i < |r| && r[i] == bp;
        assert trips[i] in trips;
      }
    }
    r
  }

  /** `bookingOptions`: the trips not yet settled, by id. */
  function BookingOptions(payables: seq<BookingPayable>): (r: seq<Id>)
    ensures |r| <= |payables|
    ensures forall id :: id in r <==>
      (exists bp :: bp in payables && bp.booking.id == id && !Truthy(bp.booking.finalPaid))
  {
    if |payables| == 0 then []
    else
      var rest := BookingOptions(payables[1..]);
      assert forall bp :: bp in payables <==> bp == payables[0] || bp in payables[1..];
      if !Truthy(payables[0].booking.finalPaid) then [payables[0].booking.id] + rest else rest
  }

  /** The trip picked in the pay-to-driver form: none, all of them, or one. */
  datatype Selection = NoSelection | AllBookings | OneBooking(id: Id)

  /** An empty selection becomes "all bookings" as soon as there is a trip. */
  function DefaultSelection(sel: Selection, payables: seq<BookingPayable>): (r: Selection)
    ensures sel != NoSelection ==> r == sel
    ensures sel == NoSelection ==> (r == AllBookings <==> |payables| > 0)
    ensures r == NoSelection ==> sel == NoSelection && |payables| == 0
  {
    if sel == NoSelection && |payables| > 0 then AllBookings else sel
  }

  /** The id a trip is looked up by. */
  function PayableId(bp: BookingPayable): Id {
    bp.booking.id
  }

  /** The payable of the first trip with this id; zero when there is none. */
  function PayableById(payables: seq<BookingPayable>, id: Id): Amount {
    match Lists.Find(payables, id, PayableId)
    case Some(bp) => bp.amountPayable
    case None => 0.0
  }

  function SumPayables(payables: seq<BookingPayable>): Amount {
    Lists.Sum(payables, (bp: BookingPayable) => bp.amountPayable)
  }

  /** `payAmount` as the form fills it in: the sum of all payables, or the
      selected trip's payable. */
  function PayAmount(sel: Selection, payables: seq<BookingPayable>): (r: Amount)
    ensures sel == NoSelection ==> r == 0.0
    ensures sel.OneBooking? && (forall bp :: bp in payables ==> bp.booking.id != sel.id) ==> r == 0.0
    ensures sel.OneBooking? ==> forall bp :: bp in payables && bp.booking.id == sel.id && UniqueIds(payables) ==> r == bp.amountPayable
  {
    match sel
    case NoSelection => 0.0
    case AllBookings => SumPayables(payables)
    case OneBooking(id) => PayableById(payables, id)
  }

  /** No two trips share an id. */
  predicate UniqueIds(payables: seq<BookingPayable>) {
    Lists.DistinctKeys(payables, PayableId)
  }

  /** With distinct ids, the "all bookings" amount is the sum of what each
      trip alone would be. */
  lemma {:induction false} AllIsSumOfEach(payables: seq<BookingPayable>)
    requires UniqueIds(payables)
    ensures PayAmount(AllBookings, payables)
         == Lists.Sum(payables, (bp: BookingPayable) => PayAmount(OneBooking(bp.booking.id), payables))
  {
    var f := (bp: BookingPayable) => bp.amountPayable;
    var g := (bp: BookingPayable) => PayAmount(OneBooking(bp.booking.id), payables);
    forall i | 0 <= i < |payables| ensures f(payables[i]) == g(payables[i]) {
      assert payables[i] in payables;
    }
    Lists.SumCongruent(payables, f, g);
  }

  /** The driver payment the settlement creates, and the booking's new
      `finalPaid`. */
  datatype SettlementRequest = SettlementRequest(
    bookingId: Id,
    driverId: Id,
    mode: PaymentMode,
    amount: Amount,
    description: string,
    newFinalPaid: Amount)

  function SettlementNote(b: Booking): string {
    "Final payment for booking " + b.pickupLocation + " to " + b.dropLocation
  }

  /** A positive settlement is already recorded. */
  predicate AlreadyPaid(b: Booking) {
    b.finalPaid.Some? && b.finalPaid.value > 0.0
  }

  /** The settlement of one trip with `amount`. */
  function SettleTrip(b: Booking, driverId: Id, amount: Amount): SettlementRequest {
    SettlementRequest(b.id, driverId, PerTrip, amount, SettlementNote(b), OrZero(b.finalPaid) + amount)
  }

  /** The settlement's bookkeeping is that of trip `bp`. */
  predicate Settles(s: SettlementRequest, bp: BookingPayable, driverId: Id) {
    s == SettleTrip(bp.booking, driverId, s.amount)
  }

  /** The "all bookings" loop over `rest`, looking payables up in `all`. */
  function SettleAll(rest: seq<BookingPayable>, all: seq<BookingPayable>, driverId: Id): (r: seq<SettlementRequest>)
    ensures forall s :: s in r ==>
      s.amount > 0.0 && s.amount == PayableById(all, s.bookingId)
      && (exists bp :: bp in rest && !AlreadyPaid(bp.booking) && Settles(s, bp, driverId))
    ensures forall bp :: bp in rest && !AlreadyPaid(bp.booking) && PayableById(all, bp.booking.id) > 0.0 ==>
      (exists s :: s in r && s.bookingId == bp.booking.id)
  {
    if |rest| == 0 then []
    else
      var b := rest[0].booking;
      var tail := SettleAll(rest[1..], all, driverId);
      assert forall bp :: bp in rest <==> bp == rest[0] || bp in rest[1..];
      if AlreadyPaid(b) then tail
      else
        var amount := PayableById(all, b.id);
        if amount > 0.0 then [SettleTrip(b, driverId, amount)] + tail else tail
  }

  /** The loop pays a trip when it has no positive settlement yet and a
      positive payable. */
  predicate Due(bp: BookingPayable, all: seq<BookingPayable>) {
    !AlreadyPaid(bp.booking) && PayableById(all, bp.booking.id) > 0.0
  }

  /** The loop as a reference: the due trips in listed order, each settled
      once with its payable. */
  lemma {:induction false} SettleAllIsFilterMap(rest: seq<BookingPayable>, all: seq<BookingPayable>, driverId: Id)
    ensures SettleAll(rest, all, driverId)
         == Lists.Map(Lists.Filter(rest, (bp: BookingPayable) => Due(bp, all)),
                      (bp: BookingPayable) => SettleTrip(bp.booking, driverId, PayableById(all, bp.booking.id)))
  {
    var due := (bp: BookingPayable) => Due(bp, all);
    var pay := (bp: BookingPayable) => SettleTrip(bp.booking, driverId, PayableById(all, bp.booking.id));
    if |rest| > 0 {
      SettleAllIsFilterMap(rest[1..], all, driverId);
      var ft := Lists.Filter(rest[1..], due);
      if due(rest[0]) {
        var m := Lists.Map([rest[0]] + ft, pay);
        assert m == [pay(rest[0])] + Lists.Map(ft, pay) by {
          assert ([rest[0]] + ft)[1..] == ft;
        }
      }
    }
  }

  /** With distinct ids, no trip is settled twice by one run of the loop. */
  lemma SettleAllOnce(rest: seq<BookingPayable>, all: seq<BookingPayable>, driverId: Id)
    requires UniqueIds(rest)
    ensures forall i, j :: 0 <= i < j < |SettleAll(rest, all, driverId)| ==>
      SettleAll(rest, all, driverId)[i].bookingId != SettleAll(rest, all, driverId)[j].bookingId
  {
    var due := (bp: BookingPayable) => Due(bp, all);
    SettleAllIsFilterMap(rest, all, driverId);
    Lists.FilterDistinctKeys(rest, due, PayableId);
  }

  /** `handlePayToDriver`: nothing without a selection, a driver and a
      positive amount; for all bookings, one settlement per unsettled trip
      with a positive payable; for one booking, a settlement of the entered
      amount when that trip carries no settlement yet. */
  function PayToDriver(sel: Selection, driverId: Option<Id>, payAmount: Amount,
                       payables: seq<BookingPayable>): (r: seq<SettlementRequest>)
    ensures sel == NoSelection || !Picked(driverId) || payAmount <= 0.0 ==> r == []
    ensures forall s :: s in r ==>
      s.amount > 0.0 && driverId == Some(s.driverId)
      && (exists bp :: bp in payables && !AlreadyPaid(bp.booking) && Settles(s, bp, s.driverId))
    ensures sel == AllBookings ==> forall s :: s in r ==> s.amount == PayableById(payables, s.bookingId)
    ensures sel == AllBookings && Picked(driverId) && payAmount > 0.0 ==>
      forall bp :: bp in payables && !AlreadyPaid(bp.booking) && PayableById(payables, bp.booking.id) > 0.0 ==>
        (exists s :: s in r && s.bookingId == bp.booking.id)
    ensures sel.OneBooking? ==>
      |r| <= 1 && forall s :: s in r ==> s.bookingId == sel.id && s.amount == payAmount && s.newFinalPaid == payAmount
    ensures sel.OneBooking? && Picked(driverId) && payAmount > 0.0 ==>
      match Lists.Find(payables, sel.id, PayableId)
      case Some(bp) => (r == [] <==> Truthy(bp.booking.finalPaid))
                       && (r != [] ==> r == [SettleTrip(bp.booking, driverId.value, payAmount)])
      case None => r == []
  {
    if sel == NoSelection || !Picked(driverId) || payAmount <= 0.0 then []
    else
      match sel
      case AllBookings => SettleAll(payables, payables, driverId.value)
      case OneBooking(id) =>
        match Lists.Find(payables, id, PayableId)
        case Some(bp) =>
          if !Truthy(bp.booking.finalPaid) then [SettleTrip(bp.booking, driverId.value, payAmount)] else []
        case None => []
  }

  /** The driver payment a settlement records never counts as oil, so paying
      a driver does not move any trip's oil total. */
  lemma SettlementIsNotOil(s: SettlementRequest, p: DriverPayment, b: Booking, payments: seq<DriverPayment>, id: Id)
    requires s == SettleTrip(b, s.driverId, s.amount)
    requires p.bookingId == Some(s.bookingId) && p.description == Some(s.description)
    ensures OilTotal(payments + [p], id) == OilTotal(payments, id)
  {
    FinalPaymentNoteRecognised(b.pickupLocation, b.dropLocation);
    OilTotalSnoc(payments, p, id);
  }

  /** A report row. */
  datatype Row = Row(
    id: Id,
    sNo: nat,
    bookingAmount: Amount,
    advanceToDriver: Amount,
    driverExpenses: Amount,
    onDutyPaid: Amount,
    driverReceived: Amount,
    amountPayable: Amount)

  /** One row: the advance alone counts as handed over, the settlement as
      received, and the payable is the summary's. */
  function MakeRow(b: Booking, payments: seq<DriverPayment>, sNo: nat): (r: Row)
    ensures r.id == b.id && r.sNo == sNo && r.bookingAmount == b.totalAmount
    ensures r.advanceToDriver == b.advanceReceived
    ensures r.onDutyPaid == PaymentTotal(b)
    ensures r.driverExpenses == ExpenseTotal(b) + OilTotal(payments, b.id)
    ensures r.driverReceived == OrZero(b.finalPaid)
    ensures r.amountPayable == PayableOf(b, payments).amountPayable
  {
    var paid := PaymentTotal(b);
    var oil := OilTotal(payments, b.id);
    var balance := TripBalance(b.advanceReceived, paid, oil, ExpenseTotal(b));
    var received := if Truthy(b.finalPaid) then b.finalPaid.value + 0.0 else 0.0;
    Row(b.id, sNo, b.totalAmount, b.advanceReceived, ExpenseTotal(b) + oil, paid, received,
        DisplayPayable(b.finalPaid, balance))
  }

  function RowsFrom(kept: seq<Booking>, payments: seq<DriverPayment>, start: nat): (r: seq<Row>)
    ensures |r| == |kept|
    ensures forall i :: 0 <= i < |kept| ==> r[i] == MakeRow(kept[i], payments, start + i)
  {
    if |kept| == 0 then [] else [MakeRow(kept[0], payments, start)] + RowsFrom(kept[1..], payments, start + 1)
  }

  /** The report's bookings, in stored order. */
  function Kept(bookings: seq<Booking>, from: Timestamp, to: Timestamp, driverId: Option<Id>): seq<Booking> {
    Lists.Filter(bookings, (b: Booking) => InReport(b, from, to, driverId))
  }

  /** `generateRows`: the report's bookings in stored order, numbered 1..n. */
  function GenerateRows(bookings: seq<Booking>, from: Timestamp, to: Timestamp, driverId: Option<Id>,
                        payments: seq<DriverPayment>): (r: seq<Row>)
    ensures |r| == |Kept(bookings, from, to, driverId)|
    ensures forall i :: 0 <= i < |r| ==> r[i] == MakeRow(Kept(bookings, from, to, driverId)[i], payments, i + 1)
    ensures forall i :: 0 <= i < |r| ==> r[i].sNo == i + 1
    ensures forall i :: 0 <= i < |r| ==>
      (exists b :: b in bookings && InReport(b, from, to, driverId) && r[i] == MakeRow(b, payments, i + 1))
  {
    var kept := Kept(bookings, from, to, driverId);
    Lists.FilterContents(bookings, (b: Booking) => InReport(b, from, to, driverId));
    assert forall i :: 0 <= i < |kept| ==> kept[i] in kept;
    RowsFrom(kept, payments, 1)
  }

  /** Number of trips in `bs` made with vehicle `v`. */
  function TripsWith(bs: seq<Booking>, v: Id): nat {
    |Lists.Filter(bs, (b: Booking) => b.vehicleId == Some(v))|
  }

  /** `m` counts, for each vehicle used in `bs`, the trips made with it. */
  ghost predicate CountsTrips(bs: seq<Booking>, m: map<Id, nat>) {
    (forall v :: v in m <==> exists b :: b in bs && b.vehicleId == Some(v))
    && (forall v :: v in m ==> m[v] == TripsWith(bs, v) && m[v] > 0)
  }

  /** The trip count per vehicle of `bs`. */
  function CountVehicles(bs: seq<Booking>): (m: map<Id, nat>)
    ensures CountsTrips(bs, m)
  {
    if |bs| == 0 then map[]
    else
      var m := CountVehicles(bs[1..]);
      CountOneMore(bs, m);
      AddTrip(bs[0], m)
  }

  /** Counts one more trip for the vehicle of `b`, if it has one. */
  function AddTrip(b: Booking, m: map<Id, nat>): map<Id, nat> {
    match b.vehicleId
    case Some(v) => m[v := (if v in m then m[v] else 0) + 1]
    case None => m
  }

  lemma TripsWithCons(bs: seq<Booking>, v: Id)
    requires |bs| > 0
    ensures TripsWith(bs, v) == (if bs[0].vehicleId == Some(v) then 1 else 0) + TripsWith(bs[1..], v)
  {
  }

  lemma CountOneMore(bs: seq<Booking>, m: map<Id, nat>)
    requires |bs| > 0 && CountsTrips(bs[1..], m)
    ensures CountsTrips(bs, AddTrip(bs[0], m))
  {
    var r := AddTrip(bs[0], m);
    assert forall b :: b in bs <==> b == bs[0] || b in bs[1..];
    forall v ensures v in r ==> r[v] == TripsWith(bs, v) && r[v] > 0 {
      TripsWithCons(bs, v);
      if v !in m {
        Lists.FilterNone(bs[1..], (b: Booking) => b.vehicleId == Some(v));
      }
    }
  }

  /** `assignedVehicles`: the known vehicles the selected driver drove in the
      window, with their trip counts; nothing without a driver. */
  function AssignedVehicles(bookings: seq<Booking>, driverId: Option<Id>, from: Timestamp, to: Timestamp,
                            known: set<Id>): (r: map<Id, nat>)
    ensures !Picked(driverId) ==> r == map[]
    ensures forall v :: v in r <==>
      (v in known && exists b :: b in bookings && OnTrip(b, from, to, driverId) && b.vehicleId == Some(v))
    ensures forall v :: v in r ==>
      r[v] > 0 && r[v] == TripsWith(Lists.Filter(bookings, (b: Booking) => OnTrip(b, from, to, driverId)), v)
  {
    var keep := (b: Booking) => OnTrip(b, from, to, driverId);
    if !Picked(driverId) then map[]
    else
      var counts := CountVehicles(Lists.Filter(bookings, keep));
      Lists.FilterContents(bookings, keep);
      map v | v in counts && v in known :: counts[v]
  }

  /** Payments that exactly cover the expenses, no oil and no settlement: the
      company report shows nothing payable while the driver report shows the
      whole advance. */
  lemma ReportsDisagreeOnCoveredTrip(b: Booking, payments: seq<DriverPayment>)
    requires PaymentTotal(b) == ExpenseTotal(b) && OilTotal(payments, b.id) == 0.0 && !Truthy(b.finalPaid)
    ensures CompanyReport.MakeRow(b, payments, 1).amountPayable == 0.0
    ensures MakeRow(b, payments, 1).amountPayable == b.advanceReceived
  {
    CompanyReport.CoveredExpensesPayNothing(b, payments);
  }

  /** The worked case: advance 2000, one on-duty payment of 500 covering one
      expense of 500, no oil. */
  lemma {:induction false} ReportsDisagreeExample(b: Booking)
    requires b.advanceReceived == 2000.0 && b.finalPaid.None?
    requires |b.payments| == 1 && b.payments[0].amount == 500.0
    requires |b.expenses| == 1 && b.expenses[0].amount == 500.0
    ensures CompanyReport.MakeRow(b, [], 1).amountPayable == 0.0
    ensures MakeRow(b, [], 1).amountPayable == 2000.0
  {
    assert b.payments[1..] == [] && b.expenses[1..] == [];
    assert Lists.Sum(b.payments[1..], PaymentAmount) == 0.0;
    assert Lists.Sum(b.expenses[1..], ExpenseAmount) == 0.0;
    OilTotalEmpty(b.id);
    ReportsDisagreeOnCoveredTrip(b, []);
  }
}

=== FILE: fuel_report.dfy ===
/** The fuel report: fuel entries and fuel-basis driver payments of a date
    window, optionally narrowed to a vehicle and a booking, merged into one
    list newest first, numbered, and totalled. */
module FuelReport {
  import opened Wrappers
  import opened Ledger
  import Lists

  /** Milliseconds in a day. */
  const DayMs: int := 86_400_000

  /** A fuel purchase recorded against a vehicle. */
  datatype FuelEntry = FuelEntry(
    id: Id,
    fuelFillDate: Timestamp,
    vehicleId: Id,
    bookingId: Option<Id>,
    fuelQuantity: Amount,
    fuelRate: Amount,
    totalAmount: Amount)

  datatype Source = FuelEntrySource | DriverPaymentSource

  datatype FuelRow = FuelRow(
    id: string,
    sNo: nat,
    date: Timestamp,
    totalKm: Amount,
    mileage: Amount,
    qty: Amount,
    rate: Amount,
    total: Amount,
    source: Source)

  /** The window runs from the start of the first day (`from`, a midnight)
      to the last millisecond of the last day (`to`, a midnight). */
  predicate InWindow(t: Timestamp, from: Timestamp, to: Timestamp) {
    from <= t <= to + DayMs - 1
  }

  /** The optional filters of the report; `None` or an empty id means "all". */
  datatype Filters = Filters(from: Timestamp, to: Timestamp, vehicleId: Option<Id>, bookingId: Option<Id>)

  /** A fuel entry is listed when it falls in the window and matches the
      chosen vehicle and booking. */
  predicate KeepEntry(f: FuelEntry, q: Filters) {
    InWindow(f.fuelFillDate, q.from, q.to)
    && (Picked(q.vehicleId) ==> f.vehicleId == q.vehicleId.value)
    && (Picked(q.bookingId) ==> f.bookingId == q.bookingId)
  }

  /** A driver payment is listed when it falls in the window, belongs to a
      booking, that booking (the first with its id) used the chosen vehicle,
      and it is the chosen booking. */
  predicate KeepPayment(p: DriverPayment, bookings: seq<Booking>, q: Filters) {
    InWindow(p.date, q.from, q.to)
    && Picked(p.bookingId)
    && (Picked(q.vehicleId) ==>
          var bk := Lists.Find(bookings, p.bookingId.value, (b: Booking) => b.id);
          bk.Some? && bk.value.vehicleId == q.vehicleId)
    && (Picked(q.bookingId) ==> p.bookingId == q.bookingId)
  }

  /** The row of a fuel entry: no distance or mileage. */
  function EntryRow(f: FuelEntry): (r: FuelRow)
    ensures r.source == FuelEntrySource && r.sNo == 0 && r.date == f.fuelFillDate
    ensures r.totalKm == 0.0 && r.mileage == 0.0
    ensures r.qty == f.fuelQuantity && r.rate == f.fuelRate && r.total == f.totalAmount
  {
    FuelRow("fuel-" + f.id, 0, f.fuelFillDate, 0.0, 0.0, f.fuelQuantity, f.fuelRate, f.totalAmount, FuelEntrySource)
  }

  /** The row of a driver payment: missing numbers show as 0, and the total
      is the computed fuel amount when there is one, else the paid amount. */
  function PaymentRow(p: DriverPayment): (r: FuelRow)
    ensures r.source == DriverPaymentSource && r.sNo == 0 && r.date == p.date
    ensures r.totalKm == OrZero(p.distanceKm) && r.mileage == OrZero(p.mileage)
    ensures r.qty == OrZero(p.fuelQuantity) && r.rate == OrZero(p.fuelRate)
    ensures Truthy(p.computedAmount) ==> r.total == p.computedAmount.value
    ensures !Truthy(p.computedAmount) ==> r.total == p.amount
  {
    FuelRow("payment-" + p.id, 0, p.date, OrZero(p.distanceKm), OrZero(p.mileage),
            OrZero(p.fuelQuantity), OrZero(p.fuelRate),
            if Truthy(p.computedAmount) then p.computedAmount.value else p.amount,
            DriverPaymentSource)
  }

  function EntryRows(fs: seq<FuelEntry>): (r: seq<FuelRow>)
    ensures |r| == |fs|
    ensures forall i :: 0 <= i < |fs| ==> r[i] == EntryRow(fs[i])
  {
    if |fs| == 0 then [] else [EntryRow(fs[0])] + EntryRows(fs[1..])
  }

  function PaymentRows(ps: seq<DriverPayment>): (r: seq<FuelRow>)
    ensures |r| == |ps|
    ensures forall i :: 0 <= i < |ps| ==> r[i] == PaymentRow(ps[i])
  {
    if |ps| == 0 then [] else [PaymentRow(ps[0])] + PaymentRows(ps[1..])
  }

  /** Newest first. */
  predicate NewestFirst(rows: seq<FuelRow>) {
    forall i, j :: 0 <= i < j < |rows| ==> rows[i].date >= rows[j].date
  }

  /** Puts `x` before the first row not newer than it, so rows of the same
      date keep their order. */
  function InsertByDate(x: FuelRow, rows: seq<FuelRow>): (r: seq<FuelRow>)
    requires NewestFirst(rows)
    ensures NewestFirst(r)
    ensures multiset(r) == multiset(rows) + multiset{x}
    ensures |r| == |rows| + 1
  {
    if |rows| == 0 || rows[0].date <= x.date then [x] + rows
    else
      var rest := InsertByDate(x, rows[1..]);
      assert rows == [rows[0]] + rows[1..];
      assert forall k :: 0 <= k < |rest| ==> rows[0].date >= rest[k].date by {
        forall k | 0 <= k < |rest| ensures rows[0].date >= rest[k].date {
          assert rest[k] in multiset(rows[1..]) + multiset{x};
        }
      }
      [rows[0]] + rest
  }

  /** The date sort of the merged rows. */
  function SortByDate(rows: seq<FuelRow>): (r: seq<FuelRow>)
    ensures NewestFirst(r)
    ensures multiset(r) == multiset(rows)
    ensures |r| == |rows|
  {
    if |rows| == 0 then []
    else
      assert rows == [rows[0]] + rows[1..];
      InsertByDate(rows[0], SortByDate(rows[1..]))
  }

  /** Serial numbers from `start` on, nothing else changed. */
  function Number(rows: seq<FuelRow>, start: nat): (r: seq<FuelRow>)
    ensures |r| == |rows|
    ensures forall i :: 0 <= i < |rows| ==> r[i] == rows[i].(sNo := start + i)
  {
    if |rows| == 0 then [] else [rows[0].(sNo := start)] + Number(rows[1..], start + 1)
  }

  function KeptEntries(entries: seq<FuelEntry>, q: Filters): seq<FuelEntry> {
    Lists.Filter(entries, (f: FuelEntry) => KeepEntry(f, q))
  }

  function KeptPayments(payments: seq<DriverPayment>, bookings: seq<Booking>, q: Filters): seq<DriverPayment> {
    Lists.Filter(payments, (p: DriverPayment) => KeepPayment(p, bookings, q))
  }

  /** The merged rows before sorting and numbering. */
  function Merged(entries: seq<FuelEntry>, payments: seq<DriverPayment>, bookings: seq<Booking>, q: Filters): seq<FuelRow> {
    EntryRows(KeptEntries(entries, q)) + PaymentRows(KeptPayments(payments, bookings, q))
  }

  /** A row with its serial number cleared. */
  function Unnumbered(rows: seq<FuelRow>): (r: seq<FuelRow>)
    ensures |r| == |rows|
    ensures forall i :: 0 <= i < |rows| ==> r[i] == rows[i].(sNo := 0)
  {
    if |rows| == 0 then [] else [rows[0].(sNo := 0)] + Unnumbered(rows[1..])
  }

  /** `generateRows`: the merged rows, newest first, numbered 1..n; apart from
      the numbers they are the merged rows rearranged. */
  function GenerateRows(entries: seq<FuelEntry>, payments: seq<DriverPayment>, bookings: seq<Booking>, q: Filters)
    : (r: seq<FuelRow>)
    ensures |r| == |KeptEntries(entries, q)| + |KeptPayments(payments, bookings, q)|
    ensures forall i :: 0 <= i < |r| ==> r[i].sNo == i + 1
    ensures NewestFirst(r)
    ensures multiset(Unnumbered(r)) == multiset(Merged(entries, payments, bookings, q))
  {
    var es := KeptEntries(entries, q);
    var ps := KeptPayments(payments, bookings, q);
    var merged := EntryRows(es) + PaymentRows(ps);
    var sorted := SortByDate(merged);
    MergedUnnumbered(es, ps);
    NumberThenClear(sorted, merged);
    Number(sorted, 1)
  }

  lemma MergedUnnumbered(es: seq<FuelEntry>, ps: seq<DriverPayment>)
    ensures forall x :: x in EntryRows(es) + PaymentRows(ps) ==> x.sNo == 0
  {
  }

  /** Numbering a rearrangement of unnumbered rows and clearing the numbers
      again gives back the rearrangement, dates in place. */
  lemma NumberThenClear(sorted: seq<FuelRow>, merged: seq<FuelRow>)
    requires multiset(sorted) == multiset(merged)
    requires forall x :: x in merged ==> x.sNo == 0
    ensures Unnumbered(Number(sorted, 1)) == sorted
    ensures NewestFirst(sorted) ==> NewestFirst(Number(sorted, 1))
  {
    var r := Number(sorted, 1);
    assert forall i :: 0 <= i < |sorted| ==> r[i].date == sorted[i].date;
    forall i | 0 <= i < |sorted| ensures sorted[i].sNo == 0 {
      assert sorted[i] in multiset(merged);
    }
    assert Unnumbered(r) == sorted;
  }

  datatype Totals = Totals(qty: Amount, total: Amount)

  function RowQty(x: FuelRow): Amount { x.qty }
  function RowTotal(x: FuelRow): Amount { x.total }
  function EntryQty(f: FuelEntry): Amount { f.fuelQuantity }
  function EntryTotal(f: FuelEntry): Amount { f.totalAmount }
  function PaymentQty(p: DriverPayment): Amount { OrZero(p.fuelQuantity) }
  function PaymentTotal(p: DriverPayment): Amount { PaymentRow(p).total }

  /** `totals`: litres and money over the listed rows. */
  /** The `totals` reduce over the listed rows. */
  function TotalsOf(rows: seq<FuelRow>): (r: Totals)
    ensures rows == [] ==> r == Totals(0.0, 0.0)
  {
    Totals(Lists.Sum(rows, RowQty), Lists.Sum(rows, RowTotal))
  }

  /** The reduce step: one more row adds its quantity and its total to the
      accumulator. */
  lemma TotalsOfSnoc(rows: seq<FuelRow>, x: FuelRow)
    ensures TotalsOf(rows + [x]) == Totals(TotalsOf(rows).qty + x.qty, TotalsOf(rows).total + x.total)
  {
    Lists.SumAppend(rows, [x], RowQty);
    Lists.SumAppend(rows, [x], RowTotal);
  }

  /** Renumbering a rearrangement keeps the totals. */
  lemma TotalsRearranged(sorted: seq<FuelRow>, merged: seq<FuelRow>)
    requires multiset(sorted) == multiset(merged)
    ensures TotalsOf(Number(sorted, 1)) == TotalsOf(merged)
  {
    var r := Number(sorted, 1);
    Lists.SumPointwise(r, RowQty, sorted, RowQty);
    Lists.SumPointwise(r, RowTotal, sorted, RowTotal);
    Lists.SumPermutation(sorted, merged, RowQty);
    Lists.SumPermutation(sorted, merged, RowTotal);
  }

  /** The totals straight from the listed entries and payments. */
  function SourceTotals(es: seq<FuelEntry>, ps: seq<DriverPayment>): Totals {
    Totals(Lists.Sum(es, EntryQty) + Lists.Sum(ps, PaymentQty),
           Lists.Sum(es, EntryTotal) + Lists.Sum(ps, PaymentTotal))
  }

  /** The totals of the merged rows split into the entries' and the payments'. */
  lemma TotalsOfMerged(es: seq<FuelEntry>, ps: seq<DriverPayment>)
    ensures TotalsOf(EntryRows(es) + PaymentRows(ps)) == SourceTotals(es, ps)
  {
    Lists.SumAppend(EntryRows(es), PaymentRows(ps), RowQty);
    Lists.SumAppend(EntryRows(es), PaymentRows(ps), RowTotal);
    Lists.SumPointwise(EntryRows(es), RowQty, es, EntryQty);
    Lists.SumPointwise(EntryRows(es), RowTotal, es, EntryTotal);
    Lists.SumPointwise(PaymentRows(ps), RowQty, ps, PaymentQty);
    Lists.SumPointwise(PaymentRows(ps), RowTotal, ps, PaymentTotal);
  }

  /** Sorting and numbering lose and double nothing: the totals are those of
      the listed fuel entries plus those of the listed driver payments. */
  lemma TotalsAreSourceTotals(entries: seq<FuelEntry>, payments: seq<DriverPayment>,
                              bookings: seq<Booking>, q: Filters)
    ensures TotalsOf(GenerateRows(entries, payments, bookings, q))
         == SourceTotals(KeptEntries(entries, q), KeptPayments(payments, bookings, q))
  {
    var es := KeptEntries(entries, q);
    var ps := KeptPayments(payments, bookings, q);
    var merged := EntryRows(es) + PaymentRows(ps);
    var sorted := SortByDate(merged);
    assert GenerateRows(entries, payments, bookings, q) == Number(sorted, 1);
    TotalsRearranged(sorted, merged);
    TotalsOfMerged(es, ps);
  }

  lemma KeptEntriesContents(entries: seq<FuelEntry>, q: Filters)
    ensures forall f :: f in KeptEntries(entries, q) <==> f in entries && KeepEntry(f, q)
  {
    Lists.FilterContents(entries, (f: FuelEntry) => KeepEntry(f, q));
  }

  lemma KeptPaymentsContents(payments: seq<DriverPayment>, bookings: seq<Booking>, q: Filters)
    ensures forall p :: p in KeptPayments(payments, bookings, q) <==> p in payments && KeepPayment(p, bookings, q)
  {
    Lists.FilterContents(payments, (p: DriverPayment) => KeepPayment(p, bookings, q));
  }

  /** A rearrangement has the same elements. */
  lemma SameElements(a: seq<FuelRow>, b: seq<FuelRow>)
    requires multiset(a) == multiset(b)
    ensures forall x :: x in a <==> x in b
  {
    forall x ensures x in a <==> x in b {
      assert x in a <==> x in multiset(a);
      assert x in b <==> x in multiset(b);
    }
  }

  /** The listed rows are the merged rows. */
  lemma ListedRows(entries: seq<FuelEntry>, payments: seq<DriverPayment>, bookings: seq<Booking>, q: Filters)
    ensures forall x :: (x in Unnumbered(GenerateRows(entries, payments, bookings, q))
      <==> x in EntryRows(KeptEntries(entries, q)) || x in PaymentRows(KeptPayments(payments, bookings, q)))
  {
    var merged := EntryRows(KeptEntries(entries, q)) + PaymentRows(KeptPayments(payments, bookings, q));
    SameElements(Unnumbered(GenerateRows(entries, payments, bookings, q)), merged);
  }

  lemma EntryRowsContents(es: seq<FuelEntry>)
    ensures forall f :: f in es ==> EntryRow(f) in EntryRows(es)
    ensures forall x :: x in EntryRows(es) ==> exists f :: f in es && x == EntryRow(f)
  {
    forall f | f in es ensures EntryRow(f) in EntryRows(es) {
      var i :| 0 <= i < |es| && es[i] == f;
      assert EntryRows(es)[i] == EntryRow(f);
    }
    forall x | x in EntryRows(es) ensures exists f :: f in es && x == EntryRow(f) {
      var i :| 0 <= i < |es| && EntryRows(es)[i] == x;
      assert es[i] in es;
    }
  }

  lemma PaymentRowsContents(ps: seq<DriverPayment>)
    ensures forall p :: p in ps ==> PaymentRow(p) in PaymentRows(ps)
    ensures forall x :: x in PaymentRows(ps) ==> exists p :: p in ps && x == PaymentRow(p)
  {
    forall p | p in ps ensures PaymentRow(p) in PaymentRows(ps) {
      var i :| 0 <= i < |ps| && ps[i] == p;
      assert PaymentRows(ps)[i] == PaymentRow(p);
    }
    forall x | x in PaymentRows(ps) ensures exists p :: p in ps && x == PaymentRow(p) {
      var i :| 0 <= i < |ps| && PaymentRows(ps)[i] == x;
      assert ps[i] in ps;
    }
  }

  /** Every listed row stands for a source record the filters keep, and
      every such record is listed. */
  lemma ListedExactlyWhenKept(entries: seq<FuelEntry>, payments: seq<DriverPayment>, bookings: seq<Booking>, q: Filters)
    ensures forall f :: f in entries && KeepEntry(f, q) ==> EntryRow(f) in Unnumbered(GenerateRows(entries, payments, bookings, q))
    ensures forall p :: p in payments && KeepPayment(p, bookings, q) ==> PaymentRow(p) in Unnumbered(GenerateRows(entries, payments, bookings, q))
    ensures forall x :: x in Unnumbered(GenerateRows(entries, payments, bookings, q)) ==>
      (exists f :: f in entries && KeepEntry(f, q) && x == EntryRow(f))
      || (exists p :: p in payments && KeepPayment(p, bookings, q) && x == PaymentRow(p))
  {
    KeptEntriesContents(entries, q);
    KeptPaymentsContents(payments, bookings, q);
    ListedRows(entries, payments, bookings, q);
    EntryRowsContents(KeptEntries(entries, q));
    PaymentRowsContents(KeptPayments(payments, bookings, q));
  }

  /** A payment with no booking is never listed, whatever the filters. */
  lemma UnlinkedPaymentNeverListed(p: DriverPayment, payments: seq<DriverPayment>, bookings: seq<Booking>, q: Filters)
    requires !Picked(p.bookingId)
    ensures p !in KeptPayments(payments, bookings, q)
  {
    KeptPaymentsContents(payments, bookings, q);
  }

  /** A payment the loader keeps: fuel basis and linked to a booking. */
  predicate FuelLinked(p: DriverPayment) {
    p.mode == FuelBasis && Picked(p.bookingId)
  }

  /** Every payment list fetched, booking by booking, skipping bookings
      without an id and fetches that failed. */
  function AllFetched(bookings: seq<Booking>, fetched: map<Id, seq<DriverPayment>>): seq<DriverPayment> {
    if |bookings| == 0 then []
    else
      var b := bookings[0];
      (if b.id == [] || b.id !in fetched then [] else fetched[b.id]) + AllFetched(bookings[1..], fetched)
  }

  /** `loadAllFuelBasisDriverPayments`: for every booking with an id whose
      payment list was fetched (`fetched`), its fuel-basis payments that name
      a booking, booking by booking. */
  function LoadFuelPayments(bookings: seq<Booking>, fetched: map<Id, seq<DriverPayment>>): (r: seq<DriverPayment>)
    ensures forall p :: p in r ==> FuelLinked(p)
    ensures forall p :: p in r <==>
      (exists b :: b in bookings && b.id != [] && b.id in fetched && p in fetched[b.id] && FuelLinked(p))
  {
    if |bookings| == 0 then []
    else
      var b := bookings[0];
      var rest := LoadFuelPayments(bookings[1..], fetched);
      assert forall x :: x in bookings <==> x == b || x in bookings[1..];
      if b.id == [] || b.id !in fetched then rest
      else
        Lists.FilterContents(fetched[b.id], FuelLinked);
        Lists.Filter(fetched[b.id], FuelLinked) + rest
  }

  /** The loader is one filter over everything fetched, in fetch order, so
      each fetched payment appears as often as it was fetched. */
  lemma {:induction false} LoadIsFilterOfFetched(bookings: seq<Booking>, fetched: map<Id, seq<DriverPayment>>)
    ensures LoadFuelPayments(bookings, fetched) == Lists.Filter(AllFetched(bookings, fetched), FuelLinked)
  {
    if |bookings| > 0 {
      var b := bookings[0];
      LoadIsFilterOfFetched(bookings[1..], fetched);
      var head := if b.id == [] || b.id !in fetched then [] else fetched[b.id];
      Lists.FilterAppend(head, AllFetched(bookings[1..], fetched), FuelLinked);
    }
  }
}

=== FILE: ledger.dfy ===
/** The booking ledger's records, shared by the backend service and the
    front-end pages, and the few derived sums every screen recomputes. */
module Ledger {
  import opened Wrappers
  import Lists
  import Text

  type Id = string
  /** Money and fuel quantities. */
  type Amount = real
  /** Milliseconds since the epoch. */
  type Timestamp = int

  datatype Status = Booked | Ongoing | Completed | Canceled

  /** One entry of the append-only status log. */
  datatype StatusChange = StatusChange(status: Status, timestamp: Timestamp, changedBy: string)

  datatype Expense = Expense(id: Id, kind: string, amount: Amount, description: string, receipt: string)

  /** A customer payment recorded on the booking. */
  datatype Payment = Payment(id: Id, amount: Amount, comments: string, collectedBy: string, paidOn: Timestamp)

  datatype DutySlip = DutySlip(id: Id, path: string, uploadedBy: string, uploadedAt: Timestamp)

  datatype BookingSource = CompanySource | TravelAgency | Individual

  /** A trip. `driverId`, `vehicleId`, `customerId` and `companyId` refer to
      records the booking does not own. */
  datatype Booking = Booking(
    id: Id,
    bookingSource: BookingSource,
    companyId: Option<Id>,
    driverId: Option<Id>,
    vehicleId: Option<Id>,
    customerId: Option<Id>,
    pickupLocation: string,
    dropLocation: string,
    startDate: Timestamp,
    endDate: Timestamp,
    totalAmount: Amount,
    advanceReceived: Amount,
    balance: Amount,
    status: Status,
    statusHistory: seq<StatusChange>,
    expenses: seq<Expense>,
    payments: seq<Payment>,
    dutySlips: seq<DutySlip>,
    billed: bool,
    finalPaid: Option<Amount>)

  datatype PaymentMode = PerTrip | Daily | FuelBasis

  /** A payment from the company to a driver (oil, fuel, per trip, or the
      settling "final payment"). Optional numbers are `undefined` when
      absent. */
  datatype DriverPayment = DriverPayment(
    id: Id,
    driverId: Id,
    bookingId: Option<Id>,
    mode: PaymentMode,
    amount: Amount,
    description: Option<string>,
    date: Timestamp,
    fuelQuantity: Option<Amount>,
    fuelRate: Option<Amount>,
    computedAmount: Option<Amount>,
    distanceKm: Option<Amount>,
    mileage: Option<Amount>,
    settled: bool)

  datatype Role = Admin | Dispatcher | Driver | Customer | Accountant

  /** The authenticated caller as the token describes it. */
  datatype AuthUser = AuthUser(role: Role, driverId: Option<Id>, customerId: Option<Id>)

  /** JavaScript truthiness of an optional id: present and non-empty. A
      select left blank and a missing link both fail it. */
  predicate Picked(o: Option<Id>) {
    o.Some? && o.value != []
  }

  /** JavaScript truthiness of an optional number: present and non-zero. */
  predicate Truthy(x: Option<Amount>) {
    x.Some? && x.value != 0.0
  }

  /** `x || 0`. */
  function OrZero(x: Option<Amount>): (r: Amount)
    ensures Truthy(x) ==> r == x.value
    ensures r == 0.0 <==> !Truthy(x)
  {
    if Truthy(x) then x.value else 0.0
  }

  /** The stored balance agrees with the two amounts it is derived from. */
  ghost predicate BalanceConsistent(b: Booking) {
    b.balance == b.totalAmount - b.advanceReceived
  }

  /** The status log is non-empty and its last entry is the current status. */
  ghost predicate HistoryConsistent(b: Booking) {
    |b.statusHistory| > 0 && b.statusHistory[|b.statusHistory| - 1].status == b.status
  }

  function ExpenseAmount(e: Expense): Amount { e.amount }
  function PaymentAmount(p: Payment): Amount { p.amount }

  /** `expenses.reduce((sum, e) => sum + e.amount, 0)`. */
  function ExpenseTotal(b: Booking): Amount {
    Lists.Sum(b.expenses, ExpenseAmount)
  }

  /** `payments.reduce((sum, p) => sum + p.amount, 0)`. */
  function PaymentTotal(b: Booking): Amount {
    Lists.Sum(b.payments, PaymentAmount)
  }

  /** The reduce step: one more expense adds its amount to the running total. */
  lemma ExpenseTotalSnoc(b: Booking, e: Expense)
    ensures ExpenseTotal(b.(expenses := b.expenses + [e])) == ExpenseTotal(b) + e.amount
  {
    Lists.SumAppend(b.expenses, [e], ExpenseAmount);
  }

  /** The reduce step: one more payment adds its amount to the running total. */
  lemma PaymentTotalSnoc(b: Booking, q: Payment)
    ensures PaymentTotal(b.(payments := b.payments + [q])) == PaymentTotal(b) + q.amount
  {
    Lists.SumAppend(b.payments, [q], PaymentAmount);
  }

  /** The booking starts inside the report window `[from, to]`. */
  predicate StartsWithin(b: Booking, from: Timestamp, to: Timestamp) {
    from <= b.startDate <= to
  }

  /** The description names a settling payment: its lower-cased text
      contains "final payment". A missing description never does. */
  predicate MentionsFinalPayment(description: Option<string>) {
    description.Some? && Text.Contains(Text.AsciiLower(description.value), "final payment")
  }

  /** The driver payment is an oil/fuel payment counted for booking `bookingId`. */
  predicate CountsAsOil(p: DriverPayment, bookingId: Id) {
    p.bookingId == Some(bookingId) && !MentionsFinalPayment(p.description)
  }

  /** What one driver payment contributes to booking `bookingId`'s oil
      total: its amount when it counts as oil there, otherwise nothing. */
  function OilShare(bookingId: Id): DriverPayment -> Amount {
    (p: DriverPayment) => if CountsAsOil(p, bookingId) then p.amount else 0.0
  }

  /** `totalOilAmount` of both reports: the driver payments attached to the
      booking, except the settling ones, summed. Equivalently, every listed
      payment contributes its oil share, so nothing is counted twice or
      missed by the filter. */
  function OilTotal(payments: seq<DriverPayment>, bookingId: Id): (r: Amount)
    ensures r == Lists.Sum(payments, OilShare(bookingId))
    ensures payments == [] ==> r == 0.0
  {
    var keep := (p: DriverPayment) => CountsAsOil(p, bookingId);
    var amount := (p: DriverPayment) => p.amount;
    Lists.SumFilter(payments, keep, amount, OilShare(bookingId));
    Lists.Sum(Lists.Filter(payments, keep), amount)
  }

  /** Adding a driver payment to the list raises the oil total by its amount
      when it is an oil payment of this booking, and leaves it alone
      otherwise. With `OilTotal([], id) == 0` this determines the sum. */
  lemma OilTotalSnoc(payments: seq<DriverPayment>, p: DriverPayment, bookingId: Id)
    ensures OilTotal(payments + [p], bookingId)
         == OilTotal(payments, bookingId) + (if CountsAsOil(p, bookingId) then p.amount else 0.0)
  {
    var keep := (q: DriverPayment) => CountsAsOil(q, bookingId);
    var amt := (q: DriverPayment) => q.amount;
    Lists.FilterAppend(payments, [p], keep);
    Lists.SumAppend(Lists.Filter(payments, keep), Lists.Filter([p], keep), amt);
    assert [p][1..] == [];
  }

  lemma OilTotalEmpty(bookingId: Id)
    ensures OilTotal([], bookingId) == 0.0
  {
  }

  /** "Final payment" lower-cases to "final payment". */
  lemma LowerFinalPayment(upper: string, lower: string)
    requires upper == "Final payment" && lower == "final payment"
    ensures Text.AsciiLower(upper) == lower
  {
    var s := Text.AsciiLower(upper);
    assert forall k :: 0 <= k < 13 ==> s[k] == lower[k];
  }

  /** The note the driver report writes when it settles a trip is
      recognised as a settling payment, despite its capital letter. */
  lemma FinalPaymentNoteRecognised(pickup: string, drop: string)
    ensures MentionsFinalPayment(Some("Final payment for booking " + pickup + " to " + drop))
  {
    var note := "Final payment for booking " + pickup + " to " + drop;
    var upper := "Final payment";
    assert Text.StartsWith(note, upper);
    Text.LowerOpening(note, upper);
    LowerFinalPayment(upper, "final payment");
    assert Text.StartsWith(Text.AsciiLower(note)[0..], "final payment");
  }
}

=== FILE: lists.dfy ===
/** Sequence operations shared by the ledger: sums of amounts, order-keeping
    filters, and the by-id updates the booking service and the pages perform on embedded arrays
    (`$pull`, the positional `$` operator, `Array.filter` and `Array.map`). */
module Lists {
  import opened Wrappers

  /** Sum of `f` over the elements of `s`, left to right (`reduce` from 0). */
  function Sum<T>(s: seq<T>, f: T -> real): real
  {
    if |s| == 0 then 0.0 else f(s[0]) + Sum(s[1..], f)
  }

  lemma {:induction false} SumAppend<T>(a: seq<T>, b: seq<T>, f: T -> real)
    ensures Sum(a + b, f) == Sum(a, f) + Sum(b, f)
  {
    if |a| == 0 {
      assert a + b == b;
    } else {
      assert (a + b)[1..] == a[1..] + b;
      SumAppend(a[1..], b, f);
    }
  }

  /** A sum of non-negative terms is non-negative. */
  lemma {:induction false} SumNonNegative<T>(s: seq<T>, f: T -> real)
    requires forall i :: 0 <= i < |s| ==> f(s[i]) >= 0.0
    ensures Sum(s, f) >= 0.0
  {
    if |s| > 0 {
      assert forall i :: 0 <= i < |s[1..]| ==> f(s[1..][i]) >= 0.0 by {
        forall i | 0 <= i < |s[1..]| ensures f(s[1..][i]) >= 0.0 {
          assert s[1..][i] == s[i + 1];
        }
      }
      SumNonNegative(s[1..], f);
    }
  }

  /** Sums that agree term by term are equal. */
  lemma {:induction false} SumCongruent<T>(s: seq<T>, f: T -> real, g: T -> real)
    requires forall i :: 0 <= i < |s| ==> f(s[i]) == g(s[i])
    ensures Sum(s, f) == Sum(s, g)
  {
    if |s| > 0 {
      assert forall i :: 0 <= i < |s[1..]| ==> f(s[1..][i]) == g(s[1..][i]) by {
        forall i | 0 <= i < |s[1..]| ensures f(s[1..][i]) == g(s[1..][i]) {
          assert s[1..][i] == s[i + 1];
        }
      }
      SumCongruent(s[1..], f, g);
    }
  }

  /** Sums agree over sequences whose elements agree position by position. */
  lemma {:induction false} SumPointwise<T, U>(a: seq<T>, f: T -> real, b: seq<U>, g: U -> real)
    requires |a| == |b|
    requires forall i :: 0 <= i < |a| ==> f(a[i]) == g(b[i])
    ensures Sum(a, f) == Sum(b, g)
  {
    if |a| > 0 {
      SumPointwise(a[1..], f, b[1..], g);
    }
  }

  /** Reordering does not change a sum. */
  lemma {:induction false} SumPermutation<T>(a: seq<T>, b: seq<T>, f: T -> real)
    requires multiset(a) == multiset(b)
    ensures Sum(a, f) == Sum(b, f)
    decreases |a|
  {
    if |a| == 0 {
      assert |b| == |multiset(b)| == 0;
    } else {
      assert a[0] in multiset(b);
      var i :| 0 <= i < |b| && b[i] == a[0];
      var rest := b[..i] + b[i + 1..];
      var tail := [b[i]] + b[i + 1..];
      assert b == b[..i] + tail;
      assert tail[1..] == b[i + 1..];
      assert a == [a[0]] + a[1..];
      assert multiset(b) == multiset(b[..i]) + multiset{b[i]} + multiset(b[i + 1..]);
      assert multiset(rest) == multiset(b[..i]) + multiset(b[i + 1..]);
      assert multiset(a) == multiset{a[0]} + multiset(a[1..]);
      assert multiset(a[1..]) == multiset(a) - multiset{a[0]};
      assert multiset(rest) == multiset(b) - multiset{b[i]};
      SumPermutation(a[1..], rest, f);
      SumAppend(b[..i], tail, f);
      SumAppend(b[..i], b[i + 1..], f);
    }
  }

  /** The elements of `s` that satisfy `keep`, in their original order. */
  function Filter<T>(s: seq<T>, keep: T -> bool): (r: seq<T>)
    ensures |r| <= |s|
  {
    if |s| == 0 then []
    else
      var rest := Filter(s[1..], keep);
      if keep(s[0]) then [s[0]] + rest else rest
  }

  /** `Filter` keeps exactly the elements satisfying `keep`, each as often as
      it occurs in the input. */
  lemma {:induction false} FilterContents<T>(s: seq<T>, keep: T -> bool)
    ensures forall x :: x in Filter(s, keep) <==> x in s && keep(x)
    ensures forall x :: multiset(Filter(s, keep))[x] == if keep(x) then multiset(s)[x] else 0
  {
    if |s| > 0 {
      FilterContents(s[1..], keep);
      assert s == [s[0]] + s[1..];
      assert multiset(s) == multiset{s[0]} + multiset(s[1..]);
    }
  }

  lemma {:induction false} FilterAppend<T>(a: seq<T>, b: seq<T>, keep: T -> bool)
    ensures Filter(a + b, keep) == Filter(a, keep) + Filter(b, keep)
  {
    if |a| == 0 {
      assert a + b == b;
    } else {
      var ab := a + b;
      assert ab[0] == a[0];
      assert ab[1..] == a[1..] + b;
      FilterAppend(a[1..], b, keep);
      var tail := Filter(a[1..], keep) + Filter(b, keep);
      assert Filter(ab, keep) == (if keep(a[0]) then [a[0]] + tail else tail);
      assert Filter(a, keep) == (if keep(a[0]) then [a[0]] + Filter(a[1..], keep) else Filter(a[1..], keep));
    }
  }

  /** Summing the kept elements equals summing every element with the
      dropped ones counted as zero. */
  lemma {:induction false} SumFilter<T>(s: seq<T>, keep: T -> bool, f: T -> real, g: T -> real)
    requires forall x :: g(x) == if keep(x) then f(x) else 0.0
    ensures Sum(Filter(s, keep), f) == Sum(s, g)
  {
    if |s| > 0 {
      SumFilter(s[1..], keep, f, g);
    }
  }

  /** No two elements share a key. */
  predicate DistinctKeys<T, K(==)>(s: seq<T>, keyOf: T -> K) {
    forall i, j :: 0 <= i < j < |s| ==> keyOf(s[i]) != keyOf(s[j])
  }

  /** Filtering keeps distinct keys distinct. */
  lemma {:induction false} FilterDistinctKeys<T, K>(s: seq<T>, keep: T -> bool, keyOf: T -> K)
    requires DistinctKeys(s, keyOf)
    ensures DistinctKeys(Filter(s, keep), keyOf)
  {
    if |s| > 0 {
      var tail := s[1..];
      assert DistinctKeys(tail, keyOf) by {
        forall i, j | 0 <= i < j < |tail| ensures keyOf(tail[i]) != keyOf(tail[j]) {
          assert tail[i] == s[i + 1] && tail[j] == s[j + 1];
        }
      }
      FilterDistinctKeys(tail, keep, keyOf);
      FilterContents(tail, keep);
      var ft := Filter(tail, keep);
      if keep(s[0]) {
        var r := [s[0]] + ft;
        forall j | 0 < j < |r| ensures keyOf(r[0]) != keyOf(r[j]) {
          var x := ft[j - 1];
          assert r[j] == x && x in Filter(tail, keep);
          FilterMember(tail, keep, x);
          var k :| 0 <= k < |tail| && tail[k] == x;
          assert tail[k] == s[k + 1];
        }
        forall i, j | 0 < i < j < |r| ensures keyOf(r[i]) != keyOf(r[j]) {
          assert r[i] == ft[i - 1] && r[j] == ft[j - 1];
        }
      }
    }
  }

  /** An element `Filter` kept comes from the input and satisfies `keep`. */
  lemma FilterMember<T>(s: seq<T>, keep: T -> bool, x: T)
    requires x in Filter(s, keep)
    ensures x in s && keep(x)
  {
    FilterContents(s, keep);
  }

  /** `f` applied to every element, in order (`Array.map`). */
  function Map<T, U>(s: seq<T>, f: T -> U): (r: seq<U>)
    ensures |r| == |s|
    ensures forall i :: 0 <= i < |s| ==> r[i] == f(s[i])
  {
    if |s| == 0 then [] else [f(s[0])] + Map(s[1..], f)
  }

  /** Filtering with a predicate no element satisfies leaves nothing. */
  lemma {:induction false} FilterNone<T>(s: seq<T>, keep: T -> bool)
    requires forall x :: x in s ==> !keep(x)
    ensures Filter(s, keep) == []
  {
    if |s| > 0 {
      assert s[0] in s;
      assert forall x :: x in s[1..] ==> x in s;
      FilterNone(s[1..], keep);
    }
  }

  /** Filtering with a predicate every element satisfies changes nothing. */
  lemma {:induction false} FilterAll<T>(s: seq<T>, keep: T -> bool)
    requires forall i :: 0 <= i < |s| ==> keep(s[i])
    ensures Filter(s, keep) == s
  {
    if |s| > 0 {
      assert forall i :: 0 <= i < |s[1..]| ==> keep(s[1..][i]) by {
        forall i | 0 <= i < |s[1..]| ensures keep(s[1..][i]) {
          assert s[1..][i] == s[i + 1];
        }
      }
      FilterAll(s[1..], keep);
    }
  }

  /** Removal of every element whose key is `key` (`$pull` by id,
      `list.filter(x => x.id !== id)`). */
  function RemoveKey<T(!new), K(==)>(s: seq<T>, key: K, keyOf: T -> K): (r: seq<T>)
    ensures forall x :: x in r <==> x in s && keyOf(x) != key
    ensures forall x :: keyOf(x) != key ==> multiset(r)[x] == multiset(s)[x]
  {
    FilterContents(s, x => keyOf(x) != key);
    Filter(s, x => keyOf(x) != key)
  }

  /** Removing one key keeps the relative order of the rest: it distributes
      over concatenation. */
  lemma RemoveKeyAppend<T(!new), K>(a: seq<T>, b: seq<T>, key: K, keyOf: T -> K)
    ensures RemoveKey(a + b, key, keyOf) == RemoveKey(a, key, keyOf) + RemoveKey(b, key, keyOf)
  {
    FilterAppend(a, b, x => keyOf(x) != key);
  }

  /** Removing a key no element has changes nothing. */
  lemma RemoveKeyAbsent<T(!new), K>(s: seq<T>, key: K, keyOf: T -> K)
    requires forall i :: 0 <= i < |s| ==> keyOf(s[i]) != key
    ensures RemoveKey(s, key, keyOf) == s
  {
    FilterAll(s, x => keyOf(x) != key);
  }

  /** Removing an element's own key removes it. */
  lemma RemoveKeyOwn<T(!new), K>(x: T, keyOf: T -> K)
    ensures RemoveKey([x], keyOf(x), keyOf) == []
  {
    assert [x][1..] == [];
  }

  /** Every element whose key is `key` replaced by `v`
      (`list.map(x => x.id === id ? v : x)`). */
  function ReplaceKey<T, K(==)>(s: seq<T>, key: K, keyOf: T -> K, v: T): (r: seq<T>)
    ensures |r| == |s|
    ensures forall i :: 0 <= i < |s| && keyOf(s[i]) != key ==> r[i] == s[i]
    ensures forall i :: 0 <= i < |s| && keyOf(s[i]) == key ==> r[i] == v
  {
    if |s| == 0 then []
    else [if keyOf(s[0]) == key then v else s[0]] + ReplaceKey(s[1..], key, keyOf, v)
  }

  /** Replacing the elements of a key by a value of the same key, then
      removing that key, is the same as removing it straight away. */
  lemma {:induction false} RemoveReplaced<T(!new), K>(s: seq<T>, key: K, keyOf: T -> K, v: T)
    requires keyOf(v) == key
    ensures RemoveKey(ReplaceKey(s, key, keyOf, v), key, keyOf) == RemoveKey(s, key, keyOf)
  {
    if |s| > 0 {
      var h := if keyOf(s[0]) == key then v else s[0];
      var rest := ReplaceKey(s[1..], key, keyOf, v);
      assert ReplaceKey(s, key, keyOf, v) == [h] + rest;
      assert s == [s[0]] + s[1..];
      RemoveKeyAppend([h], rest, key, keyOf);
      RemoveKeyAppend([s[0]], s[1..], key, keyOf);
      if keyOf(s[0]) == key {
        RemoveKeyOwn(v, keyOf);
        RemoveKeyOwn(s[0], keyOf);
      }
      RemoveReplaced(s[1..], key, keyOf, v);
    }
  }

  /** Index of the first element whose key is `key`, if any (`Array.find`,
      and the element the positional `$` operator selects). */
  function FirstIndex<T, K(==)>(s: seq<T>, key: K, keyOf: T -> K): (r: Option<nat>)
    ensures r.None? <==> forall i :: 0 <= i < |s| ==> keyOf(s[i]) != key
    ensures r.Some? ==> r.value < |s| && keyOf(s[r.value]) == key
    ensures r.Some? ==> forall j :: 0 <= j < r.value ==> keyOf(s[j]) != key
  {
    if |s| == 0 then None
    else if keyOf(s[0]) == key then Some(0)
    else
      match FirstIndex(s[1..], key, keyOf)
      case None => None
      case Some(i) => Some(i + 1)
  }

  /** Searching behind a new head: the head itself, or one past the hit in
      the rest. */
  lemma FirstIndexCons<T, K>(x: T, s: seq<T>, key: K, keyOf: T -> K)
    ensures FirstIndex([x] + s, key, keyOf)
         == if keyOf(x) == key then Some(0)
            else match FirstIndex(s, key, keyOf) case None => None case Some(i) => Some(i + 1)
  {
    assert ([x] + s)[1..] == s;
  }

  /** The first element whose key is `key`, if any. */
  function Find<T(!new), K(==)>(s: seq<T>, key: K, keyOf: T -> K): (r: Option<T>)
    ensures r.None? <==> forall x :: x in s ==> keyOf(x) != key
    ensures r.Some? ==> r.value in s && keyOf(r.value) == key
  {
    match FirstIndex(s, key, keyOf)
    case None => None
    case Some(i) => Some(s[i])
  }

  /** Applies `f` to the first element whose key is `key`; `None` when no
      element has that key (the positional update matches no document). */
  function UpdateFirst<T, K(==)>(s: seq<T>, key: K, keyOf: T -> K, f: T -> T): (r: Option<seq<T>>)
    ensures r.None? <==> forall i :: 0 <= i < |s| ==> keyOf(s[i]) != key
    ensures r.Some? ==> |r.value| == |s|
    ensures r.Some? ==> exists i :: (0 <= i < |s| && keyOf(s[i]) == key
      && (forall j :: 0 <= j < i ==> keyOf(s[j]) != key)
      && r.value[i] == f(s[i])
      && (forall j :: 0 <= j < |s| && j != i ==> r.value[j] == s[j]))
  {
    match FirstIndex(s, key, keyOf)
    case None => None
    case Some(i) => Some(s[i := f(s[i])])
  }
}

=== FILE: text.dfy ===
/** String helpers with the semantics of the JavaScript built-ins the
    services and pages rely on: `trim()`, the `\s` and `\D`
    regular-expression classes, `toLowerCase()` for the literal comparisons
    the pages make, and `includes()`. The code-point order `Less` stands in
    for `localeCompare`. A string here is a sequence of Unicode scalar
    values, not of UTF-16 code units. */
module Text {

  /** The JavaScript white-space set (WhiteSpace and LineTerminator), which
      both `trim()` and `\s` use. */
  predicate IsSpace(c: char) {
    var n := c as int;
    || (9 <= n <= 13) || n == 32 || n == 0xA0 || n == 0x1680
    || (0x2000 <= n <= 0x200A) || n == 0x2028 || n == 0x2029
    || n == 0x202F || n == 0x205F || n == 0x3000 || n == 0xFEFF
  }

  /** The class `\d`: ASCII digits only. */
  predicate IsDigit(c: char) {
    '0' <= c <= '9'
  }

  /** Number of white-space characters at the start of `s`. */
  function LeadingSpaces(s: string): (n: nat)
    ensures n <= |s|
    ensures forall k :: 0 <= k < n ==> IsSpace(s[k])
    ensures n < |s| ==> !IsSpace(s[n])
  {
    if |s| == 0 || !IsSpace(s[0]) then 0
    else
      var n := LeadingSpaces(s[1..]);
      assert forall k :: 1 <= k < n + 1 ==> s[k] == s[1..][k - 1];
      n + 1
  }

  /** Length of `s` without its trailing white space. */
  function ContentEnd(s: string): (j: nat)
    ensures j <= |s|
    ensures forall k :: j <= k < |s| ==> IsSpace(s[k])
    ensures j > 0 ==> !IsSpace(s[j - 1])
  {
    if |s| == 0 || !IsSpace(s[|s| - 1]) then |s|
    else
      var j := ContentEnd(s[..|s| - 1]);
      assert forall k :: j <= k < |s| - 1 ==> s[k] == s[..|s| - 1][k];
      j
  }

  /** `String.prototype.trim`: `s` without white space at either end. */
  function Trim(s: string): (r: string)
    ensures r == [] || (!IsSpace(r[0]) && !IsSpace(r[|r| - 1]))
    ensures r == [] <==> forall k :: 0 <= k < |s| ==> IsSpace(s[k])
    ensures r != [] ==> LeadingSpaces(s) < ContentEnd(s) && r == s[LeadingSpaces(s)..ContentEnd(s)]
  {
    var i := LeadingSpaces(s);
    if i == |s| then []
    else s[i..ContentEnd(s)]
  }

  /** The ASCII digits of `s`, in order (`s.replace(/\D/g, '')`). */
  function DigitsOf(s: string): (r: string)
    ensures forall k :: 0 <= k < |r| ==> IsDigit(r[k])
    ensures |r| <= |s|
    ensures r == [] <==> forall k :: 0 <= k < |s| ==> !IsDigit(s[k])
  {
    if |s| == 0 then []
    else if IsDigit(s[0]) then [s[0]] + DigitsOf(s[1..])
    else
      assert forall k :: 1 <= k < |s| ==> s[k] == s[1..][k - 1];
      DigitsOf(s[1..])
  }

  /** Lower-casing restricted to ASCII letters. The pages only compare
      lower-cased text with the ASCII literals "select city" and
      "final payment"; no other character lower-cases to an ASCII letter
      that could complete such a match, so this agrees with `toLowerCase`
      on every comparison the model makes. */
  function AsciiLower(s: string): (r: string)
    ensures |r| == |s|
    ensures forall k :: 0 <= k < |s| ==> r[k] == (if 'A' <= s[k] <= 'Z' then (s[k] as int + 32) as char else s[k])
  {
    if |s| == 0 then []
    else [if 'A' <= s[0] <= 'Z' then (s[0] as int + 32) as char else s[0]] + AsciiLower(s[1..])
  }

  /** `pat` occurs in `s` at position 0. */
  predicate StartsWith(s: string, pat: string) {
    |pat| <= |s| && s[..|pat|] == pat
  }

  /** Lower-casing keeps an opening, lower-cased. */
  lemma LowerOpening(s: string, pre: string)
    requires StartsWith(s, pre)
    ensures StartsWith(AsciiLower(s), AsciiLower(pre))
  {
    assert forall k :: 0 <= k < |pre| ==> s[k] == s[..|pre|][k];
  }

  /** `String.prototype.includes`. */
  function Contains(s: string, pat: string): (r: bool)
    ensures r <==> exists i :: 0 <= i <= |s| && StartsWith(s[i..], pat)
  {
    if StartsWith(s, pat) then
      assert StartsWith(s[0..], pat);
      true
    else if |s| == 0 then false
    else
      var r := Contains(s[1..], pat);
      assert forall i :: 1 <= i <= |s| ==> s[i..] == s[1..][i - 1..];
      assert s[0..] == s;
      r
  }

  /** No character is white space other than a plain space, and no two white
      space characters are adjacent. */
  predicate SingleSpaced(r: string) {
    forall k :: 0 <= k < |r| && IsSpace(r[k]) ==> r[k] == ' ' && (k + 1 < |r| ==> !IsSpace(r[k + 1]))
  }

  /** `s.replace(/\s+/g, ' ')`: every maximal run of white space becomes
      one plain space. */
  function Collapse(s: string): (r: string)
    ensures SingleSpaced(r)
    ensures s == [] <==> r == []
    ensures s != [] && !IsSpace(s[0]) ==> r[0] == s[0]
    ensures s != [] && IsSpace(s[0]) ==> r[0] == ' '
    decreases |s|
  {
    if |s| == 0 then []
    else if IsSpace(s[0]) then
      [' '] + Collapse(s[LeadingSpaces(s)..])
    else
      [s[0]] + Collapse(s[1..])
  }

  /** Collapsing white space keeps a non-space final character. */
  lemma {:induction false} CollapseLast(s: string)
    requires s != [] && !IsSpace(s[|s| - 1])
    ensures Collapse(s) != [] && !IsSpace(Collapse(s)[|Collapse(s)| - 1])
    decreases |s|
  {
    if IsSpace(s[0]) {
      var rest := s[LeadingSpaces(s)..];
      assert rest[|rest| - 1] == s[|s| - 1];
      CollapseLast(rest);
      var c := Collapse(rest);
      assert Collapse(s) == [' '] + c;
      assert Collapse(s)[|Collapse(s)| - 1] == c[|c| - 1];
    } else if |s| > 1 {
      var rest := s[1..];
      assert rest[|rest| - 1] == s[|s| - 1];
      CollapseLast(rest);
      var c := Collapse(rest);
      assert Collapse(s) == [s[0]] + c;
      assert Collapse(s)[|Collapse(s)| - 1] == c[|c| - 1];
    }
  }

  /** An already single-spaced string is left as it is: collapsing is
      idempotent. */
  lemma {:induction false} CollapseSingleSpaced(s: string)
    requires SingleSpaced(s)
    ensures Collapse(s) == s
    decreases |s|
  {
    if |s| > 0 {
      assert SingleSpaced(s[1..]) by {
        forall k | 0 <= k < |s[1..]| && IsSpace(s[1..][k])
          ensures s[1..][k] == ' ' && (k + 1 < |s[1..]| ==> !IsSpace(s[1..][k + 1]))
        {
          assert s[1..][k] == s[k + 1];
        }
      }
      CollapseSingleSpaced(s[1..]);
      if IsSpace(s[0]) {
        assert |s| > 1 ==> !IsSpace(s[1]);
        assert LeadingSpaces(s) == 1;
      }
    }
  }

  /** Collapsing twice is collapsing once. */
  lemma CollapseIdempotent(s: string)
    ensures Collapse(Collapse(s)) == Collapse(s)
  {
    CollapseSingleSpaced(Collapse(s));
  }

  /** Two words separated by a run of white space collapse to the words
      separated by one space. */
  lemma {:induction false} CollapseJoin(a: string, gap: string, b: string)
    requires forall k :: 0 <= k < |a| ==> !IsSpace(a[k])
    requires forall k :: 0 <= k < |b| ==> !IsSpace(b[k])
    requires forall k :: 0 <= k < |gap| ==> IsSpace(gap[k])
    requires gap != [] && b != []
    ensures Collapse(a + gap + b) == a + [' '] + b
    decreases |a|
  {
    var s := a + gap + b;
    if |a| == 0 {
      assert s == gap + b;
      assert s[|gap|] == b[0];
      assert LeadingSpaces(s) == |gap|;
      assert s[|gap|..] == b;
      CollapseSingleSpaced(b);
    } else {
      assert s[0] == a[0] && s[1..] == a[1..] + gap + b;
      CollapseJoin(a[1..], gap, b);
      assert a + [' '] + b == [a[0]] + (a[1..] + [' '] + b);
    }
  }

  /** The characters of `s` that are not white space, in order. */
  function Letters(s: string): (r: string)
    ensures |r| <= |s|
    ensures forall k :: 0 <= k < |r| ==> !IsSpace(r[k])
  {
    if |s| == 0 then []
    else if IsSpace(s[0]) then Letters(s[1..])
    else [s[0]] + Letters(s[1..])
  }

  lemma {:induction false} LettersAppend(a: string, b: string)
    ensures Letters(a + b) == Letters(a) + Letters(b)
  {
    if |a| == 0 {
      assert a + b == b;
    } else {
      assert (a + b)[0] == a[0] && (a + b)[1..] == a[1..] + b;
      LettersAppend(a[1..], b);
    }
  }

  /** A run of white space has no letters. */
  lemma {:induction false} LettersOfSpaces(s: string)
    requires forall k :: 0 <= k < |s| ==> IsSpace(s[k])
    ensures Letters(s) == []
  {
    if |s| > 0 {
      assert forall k :: 0 <= k < |s[1..]| ==> IsSpace(s[1..][k]) by {
        forall k | 0 <= k < |s[1..]| ensures IsSpace(s[1..][k]) {
          assert s[1..][k] == s[k + 1];
        }
      }
      LettersOfSpaces(s[1..]);
    }
  }

  /** Collapsing white space keeps every other character, in order. */
  lemma {:induction false} CollapseLetters(s: string)
    ensures Letters(Collapse(s)) == Letters(s)
    decreases |s|
  {
    if |s| > 0 {
      if IsSpace(s[0]) {
        var n := LeadingSpaces(s);
        assert s == s[..n] + s[n..];
        LettersAppend(s[..n], s[n..]);
        LettersOfSpaces(s[..n]);
        CollapseLetters(s[n..]);
        LettersAppend([' '], Collapse(s[n..]));
      } else {
        CollapseLetters(s[1..]);
        LettersAppend([s[0]], Collapse(s[1..]));
      }
    }
  }

  /** Trimming drops only white space. */
  lemma TrimLetters(s: string)
    ensures Letters(Trim(s)) == Letters(s)
  {
    var i := LeadingSpaces(s);
    if i == |s| {
      LettersOfSpaces(s);
    } else {
      var j := ContentEnd(s);
      assert s == s[..i] + s[i..j] + s[j..];
      LettersAppend(s[..i] + s[i..j], s[j..]);
      LettersAppend(s[..i], s[i..j]);
      LettersOfSpaces(s[..i]);
      LettersOfSpaces(s[j..]);
    }
  }

  /** A string with non-space ends trims to itself. */
  lemma TrimUnpadded(s: string)
    requires s != [] && !IsSpace(s[0]) && !IsSpace(s[|s| - 1])
    ensures Trim(s) == s
  {
    assert LeadingSpaces(s) == 0;
    assert ContentEnd(s) == |s|;
  }

  /** Strict lexicographic order on code points. */
  predicate Less(a: string, b: string)
    decreases |a|
  {
    if |a| == 0 then |b| > 0
    else if |b| == 0 then false
    else a[0] < b[0] || (a[0] == b[0] && Less(a[1..], b[1..]))
  }

  lemma {:induction false} LessIrreflexive(a: string)
    ensures !Less(a, a)
    decreases |a|
  {
    if |a| > 0 { LessIrreflexive(a[1..]); }
  }

  lemma {:induction false} LessTransitive(a: string, b: string, c: string)
    requires Less(a, b) && Less(b, c)
    ensures Less(a, c)
    decreases |a|
  {
    if |a| > 0 && a[0] == b[0] && b[0] == c[0] {
      LessTransitive(a[1..], b[1..], c[1..]);
    }
  }

  lemma {:induction false} LessTotal(a: string, b: string)
    requires a != b
    ensures Less(a, b) || Less(b, a)
    decreases |a|
  {
    if |a| > 0 && |b| > 0 && a[0] == b[0] {
      assert a == [a[0]] + a[1..] && b == [b[0]] + b[1..];
      LessTotal(a[1..], b[1..]);
    }
  }

  lemma LessAsymmetric(a: string, b: string)
    requires Less(a, b)
    ensures !Less(b, a)
  {
    if Less(b, a) {
      LessTransitive(a, b, a);
      LessIrreflexive(a);
    }
  }
}

=== FILE: wrappers.dfy ===
/** `Option` for the values the pages and services leave `undefined` or
    `null`, and `Result` for the operations that refuse with a
    user-visible error. */
module Wrappers {

  datatype Option<+T> = None | Some(value: T) {

    /** The wrapped value, or `default` when there is none. */
    function GetOr(default: T): T {
      match this
      case Some(v) => v
      case None => default
    }
  }

  datatype Result<+R, +E> = Success(value: R) | Failure(error: E)
}
